=== FILE: README.md ===
# BabyCare core, modelled in Dafny

BabyCare is a baby-monitor app. One phone (the monitor) captures audio and publishes it. Other phones (listeners) open a four-digit stream code and receive it. This project models the sequential logic behind that, together with the app's small translation and activity-journal services:

- **Chunked audio pipeline** (`AudioService`, `audio_service.dfy`). This is the recorder's module state as one record. It covers starting a recording with an optional stream key, one tick of the 3-second chunk timer (stop, upload, start the next chunk), stop and cleanup. It also covers the metering callback that feeds level meters and loud-noise alerts, the storage path of a chunk, and the selection of the newest chunk for listeners.
- **Real-time session state** (`AgoraService`, `agora_service.dfy`). This is the RTC engine handle, the joined flag, the current channel and the level callback. It covers init, broadcast (role 1) and listen (role 2), the join-success event, leave, mute, cleanup and the volume-to-level conversion. Whether the SDK is present is a parameter. The shipped code fixes it to "absent".
- **Token endpoint** (`TokenEndpoint`, `token_endpoint.dfy`). This covers request handling, defaults, the expiry timestamp, the separator-less message and the token layout `"007" + appId + hex(SHA-256(message + certificate))`.
- **Deep-link parser** (`DeepLink`, `deep_link.dfy`). This is the unanchored pattern `babycare://watch/(\d{4})` as a pure URL-to-route function.
- **Translation lookup** (`LanguageService`, `language_service.dfy`). This covers the current language, the dotted-path lookup with English fallback, first-occurrence `{{param}}` substitution, and the stored-preference whitelist.
- **Activity journal** (`BabyJournal`, `baby_journal.dfy`). This covers prepend, merge-update by id, delete by id, the type and today filters, and the single optional timer.

Helper modules:

- `Wrappers`: Option, Result, Reply, thrown values and JavaScript truthiness of strings.
- `Text`: decimal and lowercase-hex formatting with their inverses, `indexOf`, and one-character `split`/`join`.
- `Lists`: `filter`, specified as an exact order-preserving subsequence.

Every platform call is an outcome parameter, never behaviour. This covers microphone permission, recorder creation, stopping a recording, file reading, storage upload and listing, the RTC engine, the token backend, AsyncStorage, the clock and SHA-256. Each operation returns the new state. It also returns what the caller sees, and the calls or uploads it made.

Behaviour of the code worth knowing:

- **Loud-noise alerts.** The audio service's loud-noise callback has no debounce. `AudioService.EveryLoudSampleAlerts` proves that every loud sample reaches it. The monitor screen's own 10-second alert throttle (app/(tabs)/monitor.tsx) is not part of this model.
- **Tokens.** The token is a SHA-256 digest of the fields run together without separators. So distinct (channel, uid) pairs can share a token, as `TokenEndpoint.SeparatorlessCollision` shows. The `expiration` field in the response is the lifetime, 3600 seconds.
- **Chunk retries.** A chunk that fails to start is retried on the next tick only if an earlier recording object exists. If the first chunk fails, start still reports success, but every tick returns early and nothing is ever uploaded (`AudioService.FailedFirstChunkStallsPipeline`).
- **Leaving a channel.** When the engine's leave fails, `leaveChannel` reports the error and keeps the joined state.
- **Deep links.** A link that does not match is only logged; the user sees nothing.

## Model

| member | source | states |
|---|---|---|
| AudioService.NormalizeMetering | services/audioService.ts:55 | The level is always in [0,1]. It is 0 at or below -160 dBFS and 1 at or above 0 dBFS. |
| AudioService.NormalizeMonotone | services/audioService.ts:55 | A louder metering sample never yields a lower level. |
| AudioService.OnRecordingStatus | services/audioService.ts:52-65 | A loud-noise event fires exactly when the chunk has a listener, the loud callback is set, the sample is taken while recording with a metering value, and the level is strictly above the threshold. A level event fires exactly when the level callback is set under the same conditions. The reported level is the normalised metering value, in [0,1]. Each sample raises at most one level event and at most one alert, and the alert comes after the level event. |
| AudioService.AtThresholdIsQuiet | services/audioService.ts:61-63 | A sample whose level equals the threshold raises no alert. |
| AudioService.EveryLoudSampleAlerts | services/audioService.ts:52-63 | The service's loud-noise callback has no debounce. Over any series of samples, the number of alerts equals the number of loud samples. |
| AudioService.AllLoudAllAlert | services/audioService.ts:52-63 | A series of samples that are all loud raises one alert per sample. |
| AudioService.StartNewRecordingChunk | services/audioService.ts:35-72 | A failed chunk start is swallowed and leaves the previous recording in place. A new chunk gets a status listener exactly when a callback is set. |
| AudioService.KeyOrNull | services/audioService.ts:86 | An empty or missing stream key is stored as null. A non-empty key is stored as given. |
| AudioService.StartAudioRecording | services/audioService.ts:74-109 | If permission is denied, the reply is 'Microphone permission denied' and nothing changes. Otherwise the reply is success even when the first chunk fails. The key, callbacks and threshold are stored, with the threshold 0.7 when no sensitivity is passed. The chunk timer is armed when a non-empty key is given. |
| AudioService.RecordAndUploadChunk | services/audioService.ts:111-152 | With no recording or no key, a tick changes nothing and uploads nothing. Otherwise every path ends by starting a new chunk. An upload happens exactly when the stop succeeds with a non-empty URI, and it goes to the current key. |
| AudioService.StopAudioRecording | services/audioService.ts:154-224 | Both timers are cleared. The recording, key and callbacks are reset whatever the final upload does. The final URI is returned when the stop yields one. The final upload is tried exactly when both a URI and a key exist. |
| AudioService.CleanupAudio | services/audioService.ts:394-414 | Timers, recording, sound, key and callbacks are all dropped. The threshold is kept. |
| AudioService.ChunkPathLayout | services/audioService.ts:331 | A chunk path is the stream key, a slash, a decimal timestamp that parses back to the upload time, and ".m4a". |
| AudioService.ChunkPathsDistinct | services/audioService.ts:331-339 | Chunks of one stream uploaded at different milliseconds get different paths, so upsert only overwrites a chunk from the same millisecond. |
| AudioService.UploadAudioChunk | services/audioService.ts:303-359 | A storage write is made exactly when the file could be read. It goes to the chunk path in the audio-streams bucket as audio/m4a with upsert. Success, with that object's public URL, requires that storage reported no error. |
| AudioService.GetLatestAudioChunk | services/audioService.ts:361-392 | The URL is that of streamKey + "/" + the first listed name. An empty or missing listing gives 'Stream not found'. A storage error passes its message through. An exception gives 'Failed to fetch chunk'. |
| AudioService.ListenerFindsUploadedChunk | services/audioService.ts:379-388 | A listener whose listing starts with an uploaded chunk receives the same public URL the uploader received. |
| AudioService.TicksKeepPipeline | services/audioService.ts:111-152 | No series of ticks cancels the timer, drops the key, callbacks or threshold, or loses the recording. |
| AudioService.EveryDeliveredChunkUploads | services/audioService.ts:111-152 | While a stream runs, the uploads over any series of ticks are exactly one per tick whose chunk yields a URI, in order, each to the stream's key. Ticks whose stop throws or yields no URI upload nothing. Earlier uploads and chunk starts do not matter. |
| AudioService.DeliveredAll | services/audioService.ts:120-142 | When every tick's chunk yields a URI, there is one upload per tick. |
| AudioService.IdleTicksDoNothing | services/audioService.ts:112-115 | Ticks with no recording or no key never change the state or upload anything. |
| AudioService.FailedFirstChunkStallsPipeline | services/audioService.ts:86-115 | If the first chunk fails, start still succeeds and arms the timer, but no later tick uploads anything. |
| AudioService.RunOpsValid | services/audioService.ts:16-23 | Every run of start, tick, stop and cleanup keeps the monitoring timer unarmed and never stores an empty key. |
| AgoraService.InitializeAgora | services/agoraService.ts:62-100 | Without the SDK, init fails with the platform's message and changes nothing. With an engine already present, it succeeds and creates nothing. Otherwise it succeeds exactly when creation, `initialize` and `enableAudio` complete. A created engine is the new handle, and it stays set if only a later step failed. The level callback is never touched. `enableAudio` is called only after `initialize` returned. A failure replies with the thrown message or 'Failed to initialize Agora'. |
| AgoraService.StartSession | services/agoraService.ts:102-250 | Broadcasting or listening never sets the joined flag or the current channel itself. It replies success exactly when an engine exists or can be created, a token comes back, and the engine calls and the join complete. An engine-call failure replies with the thrown message or the operation's fallback. The level callback is replaced exactly when the handler gets registered. The engine is the existing one or the one init created. The join is attempted exactly when re-initialisation succeeded. |
| AgoraService.StartBroadcasting | services/agoraService.ts:102-175 | Success exactly when the engine, token and join all succeed, with the last call a join as role 1. An engine-call failure otherwise gives 'Failed to start broadcast'. |
| AgoraService.JoinAsListener | services/agoraService.ts:177-250 | Success exactly when the engine, token and join all succeed, with the last call a join as role 2. An engine-call failure otherwise gives 'Failed to join channel'. |
| AgoraService.InitFailureReturnedAsIs | services/agoraService.ts:109-115 | A failed init is returned unchanged, and no token is requested. |
| AgoraService.TokenFailureNeverJoins | services/agoraService.ts:117-121 | A failed token fetch replies with the backend's error or 'Failed to get token', and no join call is made. |
| AgoraService.BroadcasterRoles | services/agoraService.ts:117-164 | The broadcaster asks for a role-1 token for uid 0, sets client role 1 and joins with uid 0 as role 1. |
| AgoraService.ListenerRoles | services/agoraService.ts:192-239 | The listener uses role 2 for the token, the client role and the join, with uid 0. |
| AgoraService.NoSdkNoSession | services/agoraService.ts:62-73 | Without the SDK, broadcast and listen fail with the platform message, make no calls and change nothing. |
| AgoraService.OnJoinChannelSuccess | services/agoraService.ts:137-141 | The join-success event sets the joined flag and the channel, and leaves the engine and callback as they were. |
| AgoraService.GetChannelStatus | services/agoraService.ts:303-311 | The status reports the joined flag and the current channel. Under the service invariant, it says joined exactly when it reports a channel. |
| AgoraService.StatusAfterJoinEvent | services/agoraService.ts:303-311 | After the join event, the status reports joined and that channel. |
| AgoraService.VolumeLevel | services/agoraService.ts:148-153 | A level is emitted exactly when there is a speaker and a callback. It is the first speaker's volume divided by 255, so it lies in [0,1] for volumes 0..255. |
| AgoraService.LeaveChannel | services/agoraService.ts:252-275 | With no engine or not joined, it succeeds and changes nothing. Otherwise it calls leave once. On success it clears the flag, channel and callback. On failure it reports an error and keeps the state. |
| AgoraService.MuteLocalAudio | services/agoraService.ts:277-281 | It makes exactly one local-mute call when an engine exists, and none otherwise. A rejection of that call reaches the caller, and nothing is thrown without an engine. |
| AgoraService.MuteRemoteAudio | services/agoraService.ts:283-287 | It makes exactly one remote-mute call when an engine exists, and none otherwise. A rejection of that call reaches the caller, and nothing is thrown without an engine. |
| AgoraService.CleanupAgora | services/agoraService.ts:289-301 | Without an engine, or when `release()` returns, it ends with no engine, not joined, no channel and no callback. When `release()` throws, the error escapes and the state is exactly as before. It calls leave only if joined, and release only if an engine existed. |
| AgoraService.RunConsistent | services/agoraService.ts:22-24 | Every run of operations and events keeps "joined exactly when a channel is recorded". |
| AgoraService.RunWithoutSdk | services/agoraService.ts:12 | As shipped, with no SDK, every run from the initial state stays there and makes no calls. |
| TokenEndpoint.PrivilegeExpiredTs | supabase/functions/generate-agora-token/index.ts:13-14 | The expiry is the current second, floor(nowMillis/1000), plus the lifetime. |
| TokenEndpoint.GenerateRtcToken | supabase/functions/generate-agora-token/index.ts:5-31 | The token is "007", then the app id, then 64 lowercase hex digits. Those digits decode to the digest of message + certificate. |
| TokenEndpoint.TokenIgnoresRole | supabase/functions/generate-agora-token/index.ts:5-28 | The role does not affect the token. |
| TokenEndpoint.SeparatorlessCollision | supabase/functions/generate-agora-token/index.ts:18 | Channel "x1" with uid 23 and channel "x12" with uid 3 get the same token in the same second. |
| TokenEndpoint.DefaultRole | supabase/functions/generate-agora-token/index.ts:54 | A falsy role becomes the number 1, and a truthy one is kept. |
| TokenEndpoint.DefaultUid | supabase/functions/generate-agora-token/index.ts:55 | A uid becomes 0 exactly when it is falsy, and is kept otherwise. |
| TokenEndpoint.Serve | supabase/functions/generate-agora-token/index.ts:33-89 | OPTIONS gets a null body with CORS headers and no credential check. Missing credentials give status 500 with 'Agora credentials not configured'. Errors are exactly the 500s. A token reply echoes the app id, the channel, the defaulted uid and expiration 3600. |
| TokenEndpoint.ChannelNameRequired | supabase/functions/generate-agora-token/index.ts:49-51 | A missing or empty channel name gives status 500 with 'Channel name is required'. |
| TokenEndpoint.IssuedToken | supabase/functions/generate-agora-token/index.ts:53-78 | A valid request gets status 200. Its token hashes the app id, channel, defaulted uid and floor(now/1000)+3600, and is 3 + \|appId\| + 64 characters long. |
| TokenEndpoint.ResponseIgnoresRole | supabase/functions/generate-agora-token/index.ts:53-78 | The whole response is the same whatever role is requested. |
| Text.HexRoundTrip | supabase/functions/generate-agora-token/index.ts:26-27 | Two-digit, zero-padded, lowercase hex encoding of bytes is inverted by decoding. |
| DeepLink.StreamKey | app/_layout.tsx:33-35 | A key is found exactly when the pattern matches somewhere in the URL. It is four ASCII digits. |
| DeepLink.HandleDeepLink | app/_layout.tsx:31-41 | Navigation happens exactly when the pattern matches, and the route is "/watch/" followed by four digits. |
| DeepLink.LeftmostWins | app/_layout.tsx:33 | When several occurrences exist, the leftmost one supplies the key. |
| DeepLink.TrailingIgnored | app/_layout.tsx:33 | Characters appended to an accepted link do not change the key. |
| DeepLink.LeadingTolerated | app/_layout.tsx:33 | A prefix with no lower-case 'b' before the scheme is tolerated. |
| DeepLink.CaseSensitive | app/_layout.tsx:33 | A URL without a lower-case "b" never navigates, so an upper-case scheme is rejected. |
| DeepLink.ThreeDigitsRejected | app/_layout.tsx:33-40 | A three-digit code after the scheme that ends the URL or is followed by a non-digit gives no navigation, when no lower-case 'b' follows that could start another match. |
| DeepLink.NoMatchAfterThreeDigits | app/_layout.tsx:33 | No match of the pattern starts anywhere in such a URL. |
| DeepLink.FiveDigitsTruncated | app/_layout.tsx:33-37 | `babycare://watch/12345` navigates to `/watch/1234`. |
| LanguageService.GetAfterSet | services/languageService.ts:6-14 | `getLanguage` returns the last language set, and English before any call. |
| LanguageService.LookupPathTo | services/languageService.ts:17-22 | Walking a path finds the string stored at the end of it. |
| LanguageService.WalkPastLeaf | services/languageService.ts:20-22 | A path that continues past a string finds nothing. |
| LanguageService.Translate | services/languageService.ts:16-44 | The current-language string is used if there is one, then the English string, each with params substituted. Otherwise the key comes back verbatim. |
| LanguageService.TranslateStoredPath | services/languageService.ts:17-43 | A dotted key names the path of its segments, so `t` returns the string stored there. |
| LanguageService.TranslateMissingIsKey | services/languageService.ts:32-34 | A key missing from both trees is returned verbatim, whatever the params. |
| Text.SplitJoin | services/languageService.ts:17 | Splitting on '.' recovers the segments of a dotted key. |
| Text.JoinSplit | services/languageService.ts:17 | Splitting on '.' loses no characters. |
| LanguageService.ReplaceFirst | services/languageService.ts:39 | Only the first occurrence is touched: the text before it and after it is kept. A missing pattern leaves the text unchanged. |
| LanguageService.SubstitutionPlain | services/languageService.ts:39 | A replacement without '$' is inserted literally. |
| LanguageService.ReplaceFirstPlain | services/languageService.ts:39 | With a plain replacement, the first occurrence is swapped and everything else is kept. |
| LanguageService.LaterOccurrenceKept | services/languageService.ts:37-41 | A second occurrence of a placeholder survives the replacement. |
| LanguageService.ApplyParams | services/languageService.ts:37-41 | A text with no opening brace holds no placeholder and comes back unchanged. |
| LanguageService.NoBraceNoPlaceholder | services/languageService.ts:39 | A text without '{' contains no `{{name}}` placeholder. |
| LanguageService.PlaceholdersDisjoint | services/languageService.ts:39 | Two placeholders of brace-free names either do not overlap, or are the same placeholder at the same place. |
| LanguageService.ReplaceKeepsPlaceholder | services/languageService.ts:39 | Replacing another brace-free name's placeholder leaves a `{{n}}` placeholder in the text. |
| LanguageService.ApplyParamsKeepsUnnamed | services/languageService.ts:37-41 | A placeholder that no parameter names stays in the text after substitution, when the names are brace-free. |
| LanguageService.ApplyParamsAbsent | services/languageService.ts:37-41 | Params whose placeholders do not occur leave the text intact. |
| LanguageService.LoadLanguagePreference | services/languageService.ts:54-64 | A stored 'en', 'nl' or 'hy' is returned. Anything else, including a read error, gives English. |
| LanguageService.SaveLanguagePreference | services/languageService.ts:46-52 | A successful write stores the language's code, one that loading accepts. A failed write is swallowed and leaves the stored value as it was. |
| LanguageService.LoadAfterSave | services/languageService.ts:46-64 | A successfully saved language loads back unchanged. |
| BabyJournal.AddActivity | contexts/BabyContext.tsx:52-58 | The list grows by one. The new activity is in front, with an id that parses back to the clock value and every other field copied from the draft. The older activities follow unchanged and in order. |
| BabyJournal.UpdateActivity | contexts/BabyContext.tsx:60-66 | Length and order are kept. Matching activities get the patch merged in, and all others are identical. |
| BabyJournal.UpdateUnknownId | contexts/BabyContext.tsx:60-66 | Updating an id no activity has is the identity. |
| BabyJournal.UpdateIdempotent | contexts/BabyContext.tsx:60-66 | Applying the same update twice equals applying it once. |
| BabyJournal.UpdateTouchesOnlyMatches | contexts/BabyContext.tsx:60-66 | An update that keeps ids changes nothing outside the matching activities. |
| BabyJournal.ApplyIdempotent | contexts/BabyContext.tsx:63 | Spreading a patch twice equals spreading it once. |
| BabyJournal.ApplyEmpty | contexts/BabyContext.tsx:63 | Spreading an empty patch changes nothing. |
| BabyJournal.DeleteActivity | contexts/BabyContext.tsx:68-70 | Exactly the activities with that id are removed. Every other activity keeps its multiplicity and its order. |
| BabyJournal.DeleteIdempotent | contexts/BabyContext.tsx:68-70 | Deleting twice equals deleting once. |
| BabyJournal.DeleteUnknownId | contexts/BabyContext.tsx:68-70 | Deleting an id no activity has is the identity. |
| BabyJournal.DeleteUndoesAdd | contexts/BabyContext.tsx:52-70 | Deleting the id just handed out gives the same list as deleting that id from the list before the add. So the add is undone, and any older activity added in the same millisecond, with the same id, is removed too. |
| BabyJournal.ActivitiesByType | contexts/BabyContext.tsx:72-74 | The result is an order-preserving subsequence holding exactly the activities of that type. |
| BabyJournal.TypesPartition | contexts/BabyContext.tsx:72-74 | The four type filters together account for every activity exactly once. |
| BabyJournal.TodayActivities | contexts/BabyContext.tsx:76-80 | The result is an order-preserving subsequence holding exactly the activities at or after midnight. |
| BabyJournal.AddIsToday | contexts/BabyContext.tsx:52-80 | A new activity stamped today heads today's list, followed by the earlier ones from today. |
| BabyJournal.StartTimer | contexts/BabyContext.tsx:82-84 | Whatever was running, the timer now runs with that type from now. |
| BabyJournal.StopTimer | contexts/BabyContext.tsx:86-91 | With no timer it returns null. Otherwise it returns now minus the start time. No timer runs afterwards. |
| BabyJournal.StopAfterStart | contexts/BabyContext.tsx:82-91 | Stopping after a start reports the time between the two clock readings. |
| BabyJournal.StopTwice | contexts/BabyContext.tsx:86-91 | A second stop returns null. |

## Left out

- Platform behaviour is not modelled; each call is an outcome parameter. This covers expo-av recording, the audio mode and playback, expo-file-system reads and base64 decoding, the Supabase storage and functions clients, the RTC engine SDK and AsyncStorage.
- Playback (`playAudioFromUri`, `stopAudioPlayback`) is plumbing over the player. Only the `sound` handle's reset in cleanup is modelled.
- `generateAgoraToken`, the client-side call to the token function, is modelled only through its `{ data, error }` result (`TokenReply`). The error-text formatting of HTTP failures is not modelled.
- SHA-256 and the UTF-8 encoding before it are one parameter, a function from the message to 32 bytes. SHA-256 itself is not implemented.
- Timers and async interleaving are not modelled. The 3-second chunk interval is an armed flag, and each tick is one atomic step. Overlapping uploads are not considered.
- Levels use exact reals, not IEEE doubles. Request numbers are integers; fractional numbers, NaN and objects in the request body are not modelled.
- The journal's timestamps, ids and amounts are integers. Local midnight is a parameter, because the source derives it from the device time zone.
- AudioService.StartAudioRecording: the chunk timer is a flag. A second start with a key overwrites the interval handle, and the earlier interval keeps running. That leak is not tracked, though such stale ticks are no-ops once the key is gone (`IdleTicksDoNothing`).
- AudioService.OnRecordingStatus: status updates are taken to come from the current recording. A stopped recording sends no updates while it is recording.
- AgoraService.StartSession: `setChannelProfile`, `setClientRole`, `registerEventHandler` and `enableAudioVolumeIndication` are taken never to throw. Only re-initialisation, `enableAudio` and the join can fail. The model does not track how the SDK stores several registered handlers. The join event and volume events take the channel and callback of the handler that fires as parameters.
- LanguageService.Walk: indexing a string leaf with a further path segment counts as not found. JavaScript would index its characters or properties. Prototype keys such as "constructor" are not modelled either.
- AgoraService.CleanupAgora: the un-awaited `leaveChannel()` is recorded as a call only. A rejection of it is an unhandled promise rejection and does not affect cleanup; a synchronous throw from it is taken not to happen.
- LanguageService.ApplyParamsKeepsUnnamed: the survival of an unnamed placeholder is stated only for names without '{' or '}'. A name such as `x}}{{n` can consume part of another placeholder.
- LanguageService.ApplyParams: params arrive as a sequence in the order `Object.keys` yields them. The ordering rule for integer-like keys is the caller's concern. Values are already converted with `String(...)`.
- BabyJournal.ActivityPatch: a required field present with the value `undefined` is not representable in the model. The source accepts it when a caller passes `undefined` explicitly in the `Partial<Activity>` patch; the spread then clears that required field. No caller in the app does this.
- Rendering, navigation wiring, the deep-link subscription, journal persistence and its effects, the settings context with its theme whitelist, the hooks and the style constants are not modelled.
- Console logging is not modelled. Error text appears only where the source uses a literal or passes a message through.

=== FILE: agora_service.dfy ===
/**
 * The real-time session wrapper around the RTC engine: the module-level
 * engine handle, joined flag, current channel and level callback, and the
 * operations that create the engine, join a channel as broadcaster or
 * audience, leave, mute and clean up. Every engine call and every reply of
 * the token backend is an outcome parameter; the operations return the new
 * state, the reply the caller sees, and the calls issued, in order.
 */
module AgoraService {
  import opened Wrappers

  /** `Platform.OS === 'web'` or not. */
  datatype Platform = Web | Native

  /** The RTC engine object returned by `createAgoraRtcEngine()`. */
  datatype Engine = Engine(handle: nat)

  /** The four module-level variables of the service. */
  datatype AgoraState = AgoraState(
    engine: Option<Engine>,
    isJoined: bool,
    currentChannel: Option<string>,
    levelCallback: bool)

  const Initial := AgoraState(None, false, None, false)

  /** Token and client role numbers: 1 broadcaster (publisher), 2 audience (subscriber). */
  const BroadcasterRole: int := 1
  const AudienceRole: int := 2

  /** Channel profile 1: live broadcasting. */
  const LiveBroadcasting: int := 1

  /** Calls the service makes on the engine and on the token backend. */
  datatype Call =
    | CreateEngine
    | Initialize(appId: string)
    | EnableAudio
    | SetChannelProfile(profile: int)
    | SetClientRole(role: int)
    | RegisterEventHandler(channel: string, forwardsLevels: bool)
    | EnableAudioVolumeIndication(interval: int, smooth: int, reportVad: bool)
    | JoinChannel(token: string, channel: string, uid: int, clientRoleType: int)
    | LeaveChannelCall
    | Release
    | MuteLocalAudioStream(muted: bool)
    | MuteAllRemoteAudioStreams(muted: bool)
    | RequestToken(channel: string, uid: int, role: int)

  datatype Step = Step(state: AgoraState, reply: Reply, calls: seq<Call>)

  /** How engine creation goes when the SDK is present. */
  datatype InitOutcome =
    | InitCompletes
    | CreateThrows(error: Thrown)
    | InitializeThrows(error: Thrown)     // `initialize({ appId: 'temp' })` throws; `enableAudio` is never called
    | EnableAudioThrows(error: Thrown)    // `enableAudio()` rejects after `initialize` returned

  /** What `generateAgoraToken` resolves to: `{ data, error }`. */
  datatype TokenData = TokenData(token: string, appId: string)
  datatype TokenReply = TokenReply(data: Option<TokenData>, error: Option<string>)

  /** How the engine calls after a token go. */
  datatype EngineOutcome =
    | EngineCompletes
    | ReinitializeThrows(error: Thrown)   // `initialize({ appId })` throws; nothing after it runs
    | ReenableThrows(error: Thrown)       // `enableAudio()` rejects after the re-initialisation
    | JoinThrows(error: Thrown)           // `joinChannel` rejects, after the handler is registered

  /** Everything `initializeAgora` depends on besides the state. */
  datatype InitEnv = InitEnv(sdkPresent: bool, platform: Platform, newEngine: nat, init: InitOutcome)

  const WebMessage: string :=
    "\U{1F680} Real-time babyfoon werkt alleen in de mobiele app. Download de APK via de download knop rechtsboven!"
  const NativeMessage: string :=
    "\U{1F680} Real-time babyfoon werkt alleen in de APK build. Download de APK om deze feature te gebruiken!"

  function UnavailableMessage(p: Platform): string {
    if p == Web then WebMessage else NativeMessage
  }

  /** The invariant the service keeps: joined exactly when a current channel is recorded. */
  predicate Consistent(st: AgoraState) {
    st.isJoined <==> st.currentChannel.Some?
  }

  // ---------------------------------------------------------------- initializeAgora

  function InitializeAgora(st: AgoraState, env: InitEnv): (s: Step)
    ensures !env.sdkPresent ==> s == Step(st, Err(UnavailableMessage(env.platform)), [])
    ensures env.sdkPresent && st.engine.Some? ==> s == Step(st, Ok, [])
    ensures s.reply.Ok? <==> env.sdkPresent && (st.engine.Some? || env.init.InitCompletes?)
    ensures s.state.isJoined == st.isJoined && s.state.currentChannel == st.currentChannel
    ensures s.state.levelCallback == st.levelCallback
    ensures env.sdkPresent && st.engine.None? && !env.init.CreateThrows? ==> s.state.engine == Some(Engine(env.newEngine))
    ensures s.state.engine.Some? <==> st.engine.Some? || (env.sdkPresent && !env.init.CreateThrows?)
    ensures env.sdkPresent && st.engine.None? ==>
      && 1 <= |s.calls| && s.calls <= [CreateEngine, Initialize("temp"), EnableAudio]
      && (EnableAudio in s.calls <==> env.init.InitCompletes? || env.init.EnableAudioThrows?)
      && (Initialize("temp") in s.calls <==> !env.init.CreateThrows?)
    ensures s.reply.Err? && env.sdkPresent ==> s.reply == Err(Describe(env.init.error, "Failed to initialize Agora"))
  {
    if !env.sdkPresent then Step(st, Err(UnavailableMessage(env.platform)), [])
    else if st.engine.Some? then Step(st, Ok, [])
    else match env.init
      case CreateThrows(t) =>
        Step(st, Err(Describe(t, "Failed to initialize Agora")), [CreateEngine])
      case InitializeThrows(t) =>
        Step(st.(engine := Some(Engine(env.newEngine))),
             Err(Describe(t, "Failed to initialize Agora")),
             [CreateEngine, Initialize("temp")])
      case EnableAudioThrows(t) =>
        Step(st.(engine := Some(Engine(env.newEngine))),
             Err(Describe(t, "Failed to initialize Agora")),
             [CreateEngine, Initialize("temp"), EnableAudio])
      case InitCompletes =>
        Step(st.(engine := Some(Engine(env.newEngine))), Ok,
             [CreateEngine, Initialize("temp"), EnableAudio])
  }

  // ---------------------------------------------------------------- broadcast / listen

  /** `tokenResult.error || !tokenResult.data`. */
  predicate TokenFailed(t: TokenReply) {
    Truthy(t.error) || t.data.None?
  }

  function TokenErrorMessage(t: TokenReply): string {
    if Truthy(t.error) then t.error.value else "Failed to get token"
  }

  /** An engine exists or could be created, and a token came back: the engine calls are reached. */
  predicate Ready(st: AgoraState, env: InitEnv, token: TokenReply) {
    (st.engine.Some? || InitializeAgora(st, env).reply.Ok?) && !TokenFailed(token)
  }

  /** The re-initialisation went through, so the handler was registered and the join attempted. */
  predicate Registers(engine: EngineOutcome) {
    engine.EngineCompletes? || engine.JoinThrows?
  }

  /** The engine calls made once a token is in hand, up to and including the join. */
  function JoinSequence(role: int, channel: string, forwardsLevels: bool, d: TokenData): seq<Call> {
    [Initialize(d.appId), EnableAudio, SetChannelProfile(LiveBroadcasting), SetClientRole(role),
     RegisterEventHandler(channel, forwardsLevels), EnableAudioVolumeIndication(200, 3, true),
     JoinChannel(d.token, channel, 0, role)]
  }

  /**
   * The shared body of `startBroadcasting` (role 1) and `joinChannel`
   * (role 2): create the engine if there is none, fetch a token for uid 0,
   * configure the engine and join. `fallback` is the message used when a
   * thrown value is not an `Error`.
   */
  function StartSession(st: AgoraState, role: int, fallback: string, channel: string, forwardsLevels: bool,
                        env: InitEnv, token: TokenReply, engine: EngineOutcome): (s: Step)
    ensures s.state.isJoined == st.isJoined && s.state.currentChannel == st.currentChannel
    ensures s.reply.Ok? <==> Ready(st, env, token) && engine.EngineCompletes?
    ensures Ready(st, env, token) && !engine.EngineCompletes? ==> s.reply == Err(Describe(engine.error, fallback))
    ensures s.state.levelCallback == if Ready(st, env, token) && Registers(engine) then forwardsLevels else st.levelCallback
    ensures s.state.engine == if st.engine.Some? then st.engine else InitializeAgora(st, env).state.engine
    ensures Ready(st, env, token) ==> (JoinChannel(token.data.value.token, channel, 0, role) in s.calls <==> Registers(engine))
  {
    var init := if st.engine.None? then InitializeAgora(st, env) else Step(st, Ok, []);
    if init.reply.Err? then init
    else
      var st1 := init.state;
      var asked := init.calls + [RequestToken(channel, 0, role)];
      if TokenFailed(token) then Step(st1, Err(TokenErrorMessage(token)), asked)
      else
        var d := token.data.value;
        match engine
        case ReinitializeThrows(t) =>
          Step(st1, Err(Describe(t, fallback)), asked + [Initialize(d.appId)])
        case ReenableThrows(t) =>
          Step(st1, Err(Describe(t, fallback)), asked + [Initialize(d.appId), EnableAudio])
        case JoinThrows(t) =>
          Step(st1.(levelCallback := forwardsLevels), Err(Describe(t, fallback)),
               asked + JoinSequence(role, channel, forwardsLevels, d))
        case EngineCompletes =>
          Step(st1.(levelCallback := forwardsLevels), Ok, asked + JoinSequence(role, channel, forwardsLevels, d))
  }

  /** `startBroadcasting(channelName, onAudioLevel)`. */
  function StartBroadcasting(st: AgoraState, channel: string, forwardsLevels: bool,
                             env: InitEnv, token: TokenReply, engine: EngineOutcome): (s: Step)
    ensures s.reply.Ok? <==> Ready(st, env, token) && engine.EngineCompletes?
    ensures s.reply.Ok? ==> 1 <= |s.calls| && s.calls[|s.calls| - 1] == JoinChannel(token.data.value.token, channel, 0, BroadcasterRole)
    ensures Ready(st, env, token) && !engine.EngineCompletes? ==>
      s.reply == Err(Describe(engine.error, "Failed to start broadcast"))
  {
    StartSession(st, BroadcasterRole, "Failed to start broadcast", channel, forwardsLevels, env, token, engine)
  }

  /** `joinChannel(channelName, onAudioLevel)`: listening as audience. */
  function JoinAsListener(st: AgoraState, channel: string, forwardsLevels: bool,
                          env: InitEnv, token: TokenReply, engine: EngineOutcome): (s: Step)
    ensures s.reply.Ok? <==> Ready(st, env, token) && engine.EngineCompletes?
    ensures s.reply.Ok? ==> 1 <= |s.calls| && s.calls[|s.calls| - 1] == JoinChannel(token.data.value.token, channel, 0, AudienceRole)
    ensures Ready(st, env, token) && !engine.EngineCompletes? ==>
      s.reply == Err(Describe(engine.error, "Failed to join channel"))
  {
    StartSession(st, AudienceRole, "Failed to join channel", channel, forwardsLevels, env, token, engine)
  }

  /** `onJoinChannelSuccess` of the handler registered for `channel`. */
  function OnJoinChannelSuccess(st: AgoraState, channel: string): (r: AgoraState)
    ensures r.isJoined && r.currentChannel == Some(channel)
    ensures r.engine == st.engine && r.levelCallback == st.levelCallback
  {
    st.(isJoined := true, currentChannel := Some(channel))
  }

  /**
   * `onAudioVolumeIndication`: the first speaker's volume over 255, passed
   * on when there is a speaker and the handler was registered with a
   * callback. The handler uses the callback it closed over, not the
   * module-level variable.
   */
  function VolumeLevel(speakers: seq<int>, forwardsLevels: bool): (level: Option<real>)
    ensures level.Some? <==> |speakers| > 0 && forwardsLevels
    ensures level.Some? ==> level.value * 255.0 == speakers[0] as real
    ensures level.Some? && 0 <= speakers[0] <= 255 ==> 0.0 <= level.value <= 1.0
  {
    if |speakers| > 0 && forwardsLevels then Some(speakers[0] as real / 255.0) else None
  }

  // ---------------------------------------------------------------- leave / mute / cleanup

  /** `leaveChannel()`, where `leaveError` is what `engine.leaveChannel()` rejects with, if anything. */
  function LeaveChannel(st: AgoraState, leaveError: Option<Thrown>): (s: Step)
    ensures st.engine.None? || !st.isJoined ==> s == Step(st, Ok, [])
    ensures st.engine.Some? && st.isJoined ==> s.calls == [LeaveChannelCall]
    ensures st.engine.Some? && st.isJoined && leaveError.None? ==>
      s.reply == Ok && s.state == st.(isJoined := false, currentChannel := None, levelCallback := false)
    ensures st.engine.Some? && st.isJoined && leaveError.Some? ==>
      s.reply.Err? && s.state == st
  {
    if st.engine.None? || !st.isJoined then Step(st, Ok, [])
    else match leaveError
      case Some(t) => Step(st, Err(Describe(t, "Failed to leave channel")), [LeaveChannelCall])
      case None => Step(st.(isJoined := false, currentChannel := None, levelCallback := false), Ok, [LeaveChannelCall])
  }

  /** What a call that may reject hands back: the engine calls made, and what propagates to the caller. */
  datatype Outcome = Outcome(calls: seq<Call>, thrown: Option<Thrown>)

  /**
   * `muteLocalAudio(muted)`: only the engine call; the state is untouched.
   * `rejection` is what `muteLocalAudioStream` rejects with, if anything:
   * there is no try/catch, so it reaches the caller.
   */
  function MuteLocalAudio(st: AgoraState, muted: bool, rejection: Option<Thrown>): (r: Outcome)
    ensures st.engine.None? <==> r.calls == []
    ensures st.engine.Some? ==> r.calls == [MuteLocalAudioStream(muted)]
    ensures r.thrown.Some? <==> st.engine.Some? && rejection.Some?
    ensures r.thrown.Some? ==> r.thrown == rejection
  {
    if st.engine.Some? then Outcome([MuteLocalAudioStream(muted)], rejection) else Outcome([], None)
  }

  /** `muteRemoteAudio(muted)`, with what `muteAllRemoteAudioStreams` rejects with, if anything. */
  function MuteRemoteAudio(st: AgoraState, muted: bool, rejection: Option<Thrown>): (r: Outcome)
    ensures st.engine.None? <==> r.calls == []
    ensures st.engine.Some? ==> r.calls == [MuteAllRemoteAudioStreams(muted)]
    ensures r.thrown.Some? <==> st.engine.Some? && rejection.Some?
    ensures r.thrown.Some? ==> r.thrown == rejection
  {
    if st.engine.Some? then Outcome([MuteAllRemoteAudioStreams(muted)], rejection) else Outcome([], None)
  }

  /**
   * `cleanupAgora()`: leave if joined (without awaiting it), release the
   * engine, reset everything. `releaseError` is what `release()` throws, if
   * anything: it escapes before the engine is dropped, so the state is
   * left exactly as it was.
   */
  function CleanupAgora(st: AgoraState, releaseError: Option<Thrown>): (r: (AgoraState, Outcome))
    ensures st.engine.None? || releaseError.None? ==> r.0 == Initial && r.1.thrown.None?
    ensures st.engine.Some? && releaseError.Some? ==> r.0 == st && r.1.thrown == releaseError
    ensures st.engine.None? ==> r.1.calls == []
    ensures st.engine.Some? ==> r.1.calls == (if st.isJoined then [LeaveChannelCall, Release] else [Release])
  {
    if st.engine.None? then (Initial, Outcome([], None))
    else
      var calls := if st.isJoined then [LeaveChannelCall, Release] else [Release];
      if releaseError.Some? then (st, Outcome(calls, releaseError)) else (Initial, Outcome(calls, None))
  }

  datatype ChannelStatus = ChannelStatus(isJoined: bool, channel: Option<string>)

  /** `getChannelStatus()`: under the service invariant, joined exactly when a channel is reported. */
  function GetChannelStatus(st: AgoraState): (r: ChannelStatus)
    ensures r.isJoined == st.isJoined && r.channel == st.currentChannel
    ensures Consistent(st) ==> (r.isJoined <==> r.channel.Some?)
  {
    ChannelStatus(st.isJoined, st.currentChannel)
  }

  // ---------------------------------------------------------------- properties

  /** A failed engine creation is handed back unchanged, and no token is asked for. */
  lemma InitFailureReturnedAsIs(st: AgoraState, role: int, fallback: string, channel: string, fwd: bool,
                                env: InitEnv, token: TokenReply, engine: EngineOutcome)
    requires st.engine.None? && InitializeAgora(st, env).reply.Err?
    ensures StartSession(st, role, fallback, channel, fwd, env, token, engine) == InitializeAgora(st, env)
    ensures forall c :: c in StartSession(st, role, fallback, channel, fwd, env, token, engine).calls ==> !c.RequestToken?
  {
  }

  /** A failed token fetch ends the attempt before any join, with the backend's message or the default. */
  lemma TokenFailureNeverJoins(st: AgoraState, role: int, fallback: string, channel: string, fwd: bool,
                               env: InitEnv, token: TokenReply, engine: EngineOutcome)
    requires st.engine.Some? || InitializeAgora(st, env).reply.Ok?
    requires TokenFailed(token)
    ensures var s := StartSession(st, role, fallback, channel, fwd, env, token, engine);
      && s.reply == Err(TokenErrorMessage(token))
      && s.calls[|s.calls| - 1] == RequestToken(channel, 0, role)
      && forall c :: c in s.calls ==> !c.JoinChannel?
  {
  }

  /** The broadcaster asks for a role-1 token and joins with client role 1 and uid 0. */
  lemma BroadcasterRoles(st: AgoraState, channel: string, fwd: bool,
                         env: InitEnv, token: TokenReply, engine: EngineOutcome)
    requires st.engine.Some? || InitializeAgora(st, env).reply.Ok?
    requires !TokenFailed(token) && Registers(engine)
    ensures var s := StartBroadcasting(st, channel, fwd, env, token, engine);
      && RequestToken(channel, 0, 1) in s.calls
      && SetClientRole(1) in s.calls
      && JoinChannel(token.data.value.token, channel, 0, 1) in s.calls
  {
  }

  /** The listener uses role 2 for both the token and the join. */
  lemma ListenerRoles(st: AgoraState, channel: string, fwd: bool,
                      env: InitEnv, token: TokenReply, engine: EngineOutcome)
    requires st.engine.Some? || InitializeAgora(st, env).reply.Ok?
    requires !TokenFailed(token) && Registers(engine)
    ensures var s := JoinAsListener(st, channel, fwd, env, token, engine);
      && RequestToken(channel, 0, 2) in s.calls
      && SetClientRole(2) in s.calls
      && JoinChannel(token.data.value.token, channel, 0, 2) in s.calls
  {
  }

  /** Without the SDK, broadcasting and listening fail with the platform message and touch nothing. */
  lemma NoSdkNoSession(st: AgoraState, channel: string, fwd: bool,
                       env: InitEnv, token: TokenReply, engine: EngineOutcome)
    requires !env.sdkPresent && st.engine.None?
    ensures StartBroadcasting(st, channel, fwd, env, token, engine) == Step(st, Err(UnavailableMessage(env.platform)), [])
    ensures JoinAsListener(st, channel, fwd, env, token, engine) == Step(st, Err(UnavailableMessage(env.platform)), [])
  {
  }

  /** Once the join event has fired, the status reports the channel. */
  lemma StatusAfterJoinEvent(st: AgoraState, channel: string)
    ensures GetChannelStatus(OnJoinChannelSuccess(st, channel)) == ChannelStatus(true, Some(channel))
  {
  }

  // ---------------------------------------------------------------- runs

  /** One call into the service, or one engine event, with the outcomes it meets. */
  datatype Op =
    | InitOp(env: InitEnv)
    | BroadcastOp(channel: string, fwd: bool, env: InitEnv, token: TokenReply, engine: EngineOutcome)
    | ListenOp(channel: string, fwd: bool, env: InitEnv, token: TokenReply, engine: EngineOutcome)
    | JoinSuccessEvent(channel: string)
    | LeaveOp(leaveError: Option<Thrown>)
    | MuteLocalOp(muted: bool, rejection: Option<Thrown>)
    | MuteRemoteOp(muted: bool, rejection: Option<Thrown>)
    | CleanupOp(releaseError: Option<Thrown>)

  function ApplyOp(st: AgoraState, op: Op): (AgoraState, seq<Call>) {
    match op
    case InitOp(env) => var s := InitializeAgora(st, env); (s.state, s.calls)
    case BroadcastOp(ch, fwd, env, tk, en) => var s := StartBroadcasting(st, ch, fwd, env, tk, en); (s.state, s.calls)
    case ListenOp(ch, fwd, env, tk, en) => var s := JoinAsListener(st, ch, fwd, env, tk, en); (s.state, s.calls)
    case JoinSuccessEvent(ch) => (OnJoinChannelSuccess(st, ch), [])
    case LeaveOp(e) => var s := LeaveChannel(st, e); (s.state, s.calls)
    case MuteLocalOp(m, e) => (st, MuteLocalAudio(st, m, e).calls)
    case MuteRemoteOp(m, e) => (st, MuteRemoteAudio(st, m, e).calls)
    case CleanupOp(e) => var r := CleanupAgora(st, e); (r.0, r.1.calls)
  }

  /** The final state and every call issued by a sequence of operations. */
  function Run(st: AgoraState, ops: seq<Op>): (AgoraState, seq<Call>)
    decreases |ops|
  {
    if ops == [] then (st, [])
    else
      var first := ApplyOp(st, ops[0]);
      var rest := Run(first.0, ops[1..]);
      (rest.0, first.1 + rest.1)
  }

  /** Every operation keeps "joined exactly when a channel is recorded". */
  lemma ApplyOpConsistent(st: AgoraState, op: Op)
    requires Consistent(st)
    ensures Consistent(ApplyOp(st, op).0)
  {
  }

  lemma {:induction false} RunConsistent(st: AgoraState, ops: seq<Op>)
    requires Consistent(st)
    ensures Consistent(Run(st, ops).0)
    decreases |ops|
  {
    if ops != [] {
      ApplyOpConsistent(st, ops[0]);
      RunConsistent(ApplyOp(st, ops[0]).0, ops[1..]);
    }
  }

  /** The operation is not an engine event and finds no SDK. */
  predicate WithoutSdk(op: Op) {
    match op
    case InitOp(env) => !env.sdkPresent
    case BroadcastOp(_, _, env, _, _) => !env.sdkPresent
    case ListenOp(_, _, env, _, _) => !env.sdkPresent
    case JoinSuccessEvent(_) => false
    case _ => true
  }

  /** As shipped (no SDK), any run from the initial state stays there and calls nothing. */
  lemma {:induction false} RunWithoutSdk(ops: seq<Op>)
    requires forall k :: 0 <= k < |ops| ==> WithoutSdk(ops[k])
    ensures Run(Initial, ops) == (Initial, [])
  {
    if ops != [] {
      ApplyOpWithoutSdk(ops[0]);
      RunWithoutSdk(ops[1..]);
      var none: seq<Call> := [];
      assert none + none == none;
    }
  }

  lemma ApplyOpWithoutSdk(op: Op)
    requires WithoutSdk(op)
    ensures ApplyOp(Initial, op) == (Initial, [])
  {
  }
}

=== FILE: audio_service.dfy ===
/**
 * The chunked audio pipeline: the module-level recorder state, starting a
 * recording (with an optional stream key that arms a 3-second chunk
 * timer), one tick of that timer (stop the chunk, upload it, start the
 * next), stopping, cleanup, the metering callback, the storage path of a
 * chunk and the selection of the newest chunk for listeners.
 *
 * Platform calls are outcome parameters: the permission answer, whether a
 * new recording could be created (and its handle), what stopping a
 * recording yields, whether the upload could be prepared and what storage
 * answered, and the clock.
 */
module AudioService {
  import opened Wrappers
  import opened Text

  /** A recording object. `metered` says whether a status listener was attached to it. */
  datatype Recording = Recording(handle: nat, metered: bool)

  /** The module-level variables of the service, timers as "armed" flags. */
  datatype AudioState = AudioState(
    recording: Option<Recording>,
    sound: Option<nat>,
    monitoringTimer: bool,
    chunkTimer: bool,
    streamKey: Option<string>,
    onLevelChange: bool,
    onLoudNoise: bool,
    threshold: real)

  const DefaultSensitivity: real := 0.7

  const Initial := AudioState(None, None, false, false, None, false, false, DefaultSensitivity)

  /** The storage bucket every chunk goes to. */
  const Bucket: string := "audio-streams"

  /** The invariant the service keeps: the monitoring timer is never armed, and a stored key is non-empty. */
  predicate Valid(st: AudioState) {
    !st.monitoringTimer && (st.streamKey.Some? ==> st.streamKey.value != "")
  }

  // ---------------------------------------------------------------- metering

  /** `Math.max(0, Math.min(1, (metering + 160) / 160))`. */
  function NormalizeMetering(metering: real): (level: real)
    ensures 0.0 <= level <= 1.0
    ensures metering <= -160.0 ==> level == 0.0
    ensures metering >= 0.0 ==> level == 1.0
  {
    var raw := (metering + 160.0) / 160.0;
    var capped := if raw < 1.0 then raw else 1.0;
    if capped > 0.0 then capped else 0.0
  }

  /** A louder sample never gives a lower level. */
  lemma NormalizeMonotone(a: real, b: real)
    requires a <= b
    ensures NormalizeMetering(a) <= NormalizeMetering(b)
  {
  }

  /** A recording status update: `isRecording` and the optional `metering` in dBFS. */
  datatype RecordingStatus = RecordingStatus(isRecording: bool, metering: Option<real>)

  datatype AudioEvent = LevelChanged(level: real) | LoudNoise

  /** The sample counts: it is taken while recording and carries a metering value. */
  predicate Counts(s: RecordingStatus) {
    s.isRecording && s.metering.Some?
  }

  /** The sample is loud: strictly above the threshold. */
  predicate Loud(s: RecordingStatus, threshold: real) {
    Counts(s) && NormalizeMetering(s.metering.value) > threshold
  }

  /**
   * The status listener of the current recording. It reads the callbacks
   * and threshold from the module state when it runs, and there is none
   * unless a callback was set when the chunk started.
   */
  function OnRecordingStatus(st: AudioState, s: RecordingStatus): (events: seq<AudioEvent>)
    ensures LoudNoise in events <==>
      st.recording.Some? && st.recording.value.metered && st.onLoudNoise && Loud(s, st.threshold)
    ensures (exists l :: LevelChanged(l) in events) <==>
      st.recording.Some? && st.recording.value.metered && st.onLevelChange && Counts(s)
    ensures forall l :: LevelChanged(l) in events ==> l == NormalizeMetering(s.metering.value)
    ensures multiset(events)[LoudNoise] <= 1
    ensures LoudNoise in events ==> events[|events| - 1] == LoudNoise
    ensures forall l :: multiset(events)[LevelChanged(l)] <= 1
    ensures forall l :: LevelChanged(l) in events ==> 0.0 <= l <= 1.0
  {
    if st.recording.Some? && st.recording.value.metered && Counts(s) then
      var level := NormalizeMetering(s.metering.value);
      (if st.onLevelChange then [LevelChanged(level)] else [])
        + (if st.onLoudNoise && level > st.threshold then [LoudNoise] else [])
    else []
  }

  /** A sample exactly at the threshold raises no alert. */
  lemma AtThresholdIsQuiet(st: AudioState, s: RecordingStatus)
    requires Counts(s) && NormalizeMetering(s.metering.value) == st.threshold
    ensures LoudNoise !in OnRecordingStatus(st, s)
  {
  }

  /** The number of alerts raised over a series of status updates. */
  function Alerts(st: AudioState, samples: seq<RecordingStatus>): nat
    decreases |samples|
  {
    if samples == [] then 0
    else (if LoudNoise in OnRecordingStatus(st, samples[0]) then 1 else 0) + Alerts(st, samples[1..])
  }

  /** The number of loud samples in a series. */
  function LoudSamples(samples: seq<RecordingStatus>, threshold: real): nat
    decreases |samples|
  {
    if samples == [] then 0
    else (if Loud(samples[0], threshold) then 1 else 0) + LoudSamples(samples[1..], threshold)
  }

  /** The service callback has no debounce: every loud sample calls it. */
  lemma {:induction false} EveryLoudSampleAlerts(st: AudioState, samples: seq<RecordingStatus>)
    requires st.recording.Some? && st.recording.value.metered && st.onLoudNoise
    ensures Alerts(st, samples) == LoudSamples(samples, st.threshold)
  {
    if samples != [] {
      EveryLoudSampleAlerts(st, samples[1..]);
    }
  }

  /** A series of loud samples calls the loud-noise callback once per sample. */
  lemma {:induction false} AllLoudAllAlert(st: AudioState, samples: seq<RecordingStatus>)
    requires st.recording.Some? && st.recording.value.metered && st.onLoudNoise
    requires forall k :: 0 <= k < |samples| ==> Loud(samples[k], st.threshold)
    ensures Alerts(st, samples) == |samples|
  {
    if samples != [] {
      AllLoudAllAlert(st, samples[1..]);
    }
  }

  // ---------------------------------------------------------------- storage

  /** `${streamKey}/${Date.now()}.m4a`. */
  function ChunkPath(streamKey: string, nowMillis: nat): string {
    streamKey + "/" + NatToString(nowMillis) + ".m4a"
  }

  /** A chunk path names its stream folder and its timestamp, which parses back. */
  lemma ChunkPathLayout(streamKey: string, nowMillis: nat)
    ensures var p := ChunkPath(streamKey, nowMillis);
      var stamp := p[|streamKey| + 1..|p| - 4];
      && p[..|streamKey| + 1] == streamKey + "/"
      && p[|p| - 4..] == ".m4a"
      && AllDigits(stamp)
      && ParseDigits(stamp) == nowMillis
  {
    var p := ChunkPath(streamKey, nowMillis);
    assert p[|streamKey| + 1..|p| - 4] == NatToString(nowMillis);
    ParseNatToString(nowMillis);
  }

  /** Chunks of one stream taken at different milliseconds never overwrite each other. */
  lemma ChunkPathsDistinct(streamKey: string, t1: nat, t2: nat)
    requires t1 != t2
    ensures ChunkPath(streamKey, t1) != ChunkPath(streamKey, t2)
  {
    if ChunkPath(streamKey, t1) == ChunkPath(streamKey, t2) {
      ChunkPathLayout(streamKey, t1);
      ChunkPathLayout(streamKey, t2);
    }
  }

  /** `getPublicUrl` of a path in a bucket. */
  datatype PublicUrl = PublicUrl(bucket: string, path: string)

  /** The `upload(fileName, blob, { contentType, upsert })` call made on storage. */
  datatype StorageWrite = StorageWrite(bucket: string, path: string, contentType: string, upsert: bool)

  /** Reading the file and building the blob: succeeds, or throws before storage is called. */
  datatype Prepare = Prepared | PrepareThrew(thrown: Thrown)

  /** What an upload meets: the clock, the preparation and storage's error, if any. */
  datatype UploadEnv = UploadEnv(nowMillis: nat, prepare: Prepare, storageError: Option<string>)

  datatype UploadResult = UploadResult(write: Option<StorageWrite>, outcome: Result<PublicUrl, string>)

  /** `uploadAudioChunk(audioUri, streamKey)`; it never throws. */
  function UploadAudioChunk(uri: string, streamKey: string, env: UploadEnv): (r: UploadResult)
    ensures r.write.Some? <==> env.prepare.Prepared?
    ensures r.write.Some? ==>
      r.write.value == StorageWrite(Bucket, ChunkPath(streamKey, env.nowMillis), "audio/m4a", true)
    ensures r.outcome.Success? <==> env.prepare.Prepared? && env.storageError.None?
    ensures r.outcome.Success? ==> r.outcome.value == PublicUrl(Bucket, ChunkPath(streamKey, env.nowMillis))
  {
    match env.prepare
    case PrepareThrew(t) => UploadResult(None, Failure(Describe(t, "Failed to upload audio")))
    case Prepared =>
      var path := ChunkPath(streamKey, env.nowMillis);
      var write := StorageWrite(Bucket, path, "audio/m4a", true);
      match env.storageError
      case Some(m) => UploadResult(Some(write), Failure(m))
      case None => UploadResult(Some(write), Success(PublicUrl(Bucket, path)))
  }

  /** What `list(streamKey, { limit: 1, sortBy: created_at desc })` answered. */
  datatype Listing = ListError(message: string) | Listed(names: seq<string>) | NoData | ListThrew

  /** `getLatestAudioChunk(streamKey)`: the public URL of the first listed object. */
  function GetLatestAudioChunk(streamKey: string, listing: Listing): (r: Result<PublicUrl, string>)
    ensures r.Success? <==> listing.Listed? && |listing.names| > 0
    ensures r.Success? ==> r.value == PublicUrl(Bucket, streamKey + "/" + listing.names[0])
    ensures (listing.NoData? || listing == Listed([])) ==> r == Failure("Stream not found")
    ensures listing.ListError? ==> r == Failure(listing.message)
    ensures listing.ListThrew? ==> r == Failure("Failed to fetch chunk")
  {
    match listing
    case ListError(m) => Failure(m)
    case NoData => Failure("Stream not found")
    case ListThrew => Failure("Failed to fetch chunk")
    case Listed(names) =>
      if |names| == 0 then Failure("Stream not found")
      else Success(PublicUrl(Bucket, streamKey + "/" + names[0]))
  }

  /** A listener that sees an uploaded chunk at the head of the listing gets the URL the uploader got. */
  lemma ListenerFindsUploadedChunk(uri: string, streamKey: string, env: UploadEnv, older: seq<string>)
    requires env.prepare.Prepared? && env.storageError.None?
    ensures GetLatestAudioChunk(streamKey, Listed([NatToString(env.nowMillis) + ".m4a"] + older))
         == UploadAudioChunk(uri, streamKey, env).outcome
  {
    assert streamKey + "/" + (NatToString(env.nowMillis) + ".m4a") == ChunkPath(streamKey, env.nowMillis);
  }

  // ---------------------------------------------------------------- recording lifecycle

  /** Whether `Audio.Recording.createAsync` (with the audio-mode call before it) succeeded. */
  datatype ChunkOutcome = ChunkStarted(handle: nat) | ChunkFailed

  /** What `recording.stopAndUnloadAsync()` then `recording.getURI()` yield. */
  datatype StopOutcome = Unloaded(uri: Option<string>) | UnloadThrew

  /** `startNewRecordingChunk()`: errors are swallowed, leaving the previous recording in place. */
  function StartNewRecordingChunk(st: AudioState, chunk: ChunkOutcome): (r: AudioState)
    ensures chunk.ChunkFailed? ==> r == st
    ensures chunk.ChunkStarted? ==>
      r == st.(recording := Some(Recording(chunk.handle, st.onLevelChange || st.onLoudNoise)))
  {
    match chunk
    case ChunkFailed => st
    case ChunkStarted(h) => st.(recording := Some(Recording(h, st.onLevelChange || st.onLoudNoise)))
  }

  /** `streamKey || null`. */
  function KeyOrNull(key: Option<string>): (r: Option<string>)
    ensures r.Some? <==> Truthy(key)
    ensures r.Some? ==> r == key
  {
    if Truthy(key) then key else None
  }

  /** The `sensitivity = 0.7` default parameter: an omitted sensitivity is 0.7. */
  function SensitivityOrDefault(sensitivity: Option<real>): real {
    match sensitivity
    case Some(v) => v
    case None => DefaultSensitivity
  }

  /**
   * `startAudioRecording(onLevelChange, onLoudNoiseDetected, sensitivity, streamKey)`
   * with the permission answer and the outcome of the first chunk.
   */
  function StartAudioRecording(st: AudioState, onLevelChange: bool, onLoudNoise: bool, sensitivity: Option<real>,
                               streamKey: Option<string>, permission: bool, chunk: ChunkOutcome): (r: (AudioState, Reply))
    ensures !permission ==> r == (st, Err("Microphone permission denied"))
    ensures permission ==> r.1 == Ok
    ensures permission ==>
      && r.0.streamKey == KeyOrNull(streamKey)
      && r.0.onLevelChange == onLevelChange && r.0.onLoudNoise == onLoudNoise
      && r.0.threshold == (if sensitivity.Some? then sensitivity.value else DefaultSensitivity)
      && r.0.chunkTimer == (Truthy(streamKey) || st.chunkTimer)
      && r.0.monitoringTimer == st.monitoringTimer && r.0.sound == st.sound
    ensures permission && chunk.ChunkFailed? ==> r.0.recording == st.recording
    ensures permission && chunk.ChunkStarted? ==>
      r.0.recording == Some(Recording(chunk.handle, onLevelChange || onLoudNoise))
  {
    if !permission then (st, Err("Microphone permission denied"))
    else
      var configured := st.(streamKey := KeyOrNull(streamKey), onLevelChange := onLevelChange,
                            onLoudNoise := onLoudNoise, threshold := SensitivityOrDefault(sensitivity));
      var started := StartNewRecordingChunk(configured, chunk);
      var armed := if started.streamKey.Some? then started.(chunkTimer := true) else started;
      (armed, Ok)
  }

  /** One upload made by the pipeline: the file it read, the stream, and how it went. */
  datatype UploadCall = UploadCall(uri: string, streamKey: string, result: UploadResult)

  /**
   * One tick of the chunk timer, `recordAndUploadChunk()`: stop the current
   * chunk, upload it if it has a URI, and start the next chunk on every path.
   */
  function RecordAndUploadChunk(st: AudioState, stop: StopOutcome, upload: UploadEnv, next: ChunkOutcome)
    : (r: (AudioState, Option<UploadCall>))
    ensures st.recording.None? || !Truthy(st.streamKey) ==> r == (st, None)
    ensures st.recording.Some? && Truthy(st.streamKey) ==> r.0 == StartNewRecordingChunk(st, next)
    ensures r.1.Some? <==>
      st.recording.Some? && Truthy(st.streamKey) && stop.Unloaded? && Truthy(stop.uri)
    ensures r.1.Some? ==>
      r.1.value == UploadCall(stop.uri.value, st.streamKey.value,
                              UploadAudioChunk(stop.uri.value, st.streamKey.value, upload))
  {
    if st.recording.None? || !Truthy(st.streamKey) then (st, None)
    else
      var key := st.streamKey.value;
      match stop
      case UnloadThrew => (StartNewRecordingChunk(st, next), None)
      case Unloaded(uri) =>
        if !Truthy(uri) then (StartNewRecordingChunk(st, next), None)
        else
          var call := UploadCall(uri.value, key, UploadAudioChunk(uri.value, key, upload));
          (StartNewRecordingChunk(st, next), Some(call))
  }

  /**
   * `stopAudioRecording()`: clear both timers, stop the recording and try a
   * final upload, then forget the key and the callbacks. It always reports
   * success, with the final URI when one was obtained.
   */
  function StopAudioRecording(st: AudioState, stop: StopOutcome, upload: UploadEnv)
    : (r: (AudioState, Option<string>, Option<UploadCall>))
    ensures !r.0.chunkTimer && !r.0.monitoringTimer
    ensures r.0.recording.None? && r.0.streamKey.None? && !r.0.onLevelChange && !r.0.onLoudNoise
    ensures r.0.threshold == st.threshold && r.0.sound == st.sound
    ensures r.1.Some? <==> st.recording.Some? && stop.Unloaded? && Truthy(stop.uri)
    ensures r.1.Some? ==> r.1 == stop.uri
    ensures r.2.Some? <==> r.1.Some? && Truthy(st.streamKey)
    ensures r.2.Some? ==>
      r.2.value == UploadCall(r.1.value, st.streamKey.value,
                              UploadAudioChunk(r.1.value, st.streamKey.value, upload))
  {
    var finalUri: Option<string> :=
      if st.recording.Some? && stop.Unloaded? && Truthy(stop.uri) then stop.uri else None;
    var call :=
      if finalUri.Some? && Truthy(st.streamKey) then
        Some(UploadCall(finalUri.value, st.streamKey.value,
                        UploadAudioChunk(finalUri.value, st.streamKey.value, upload)))
      else None;
    var cleared := st.(chunkTimer := false, monitoringTimer := false, recording := None,
                       streamKey := None, onLevelChange := false, onLoudNoise := false);
    (cleared, finalUri, call)
  }

  /** `cleanupAudio()`: drop timers, recording, sound, key and callbacks without uploading. */
  function CleanupAudio(st: AudioState): (r: AudioState)
    ensures !r.chunkTimer && !r.monitoringTimer
    ensures r.recording.None? && r.sound.None? && r.streamKey.None?
    ensures !r.onLevelChange && !r.onLoudNoise
    ensures r.threshold == st.threshold
  {
    st.(chunkTimer := false, monitoringTimer := false, recording := None, sound := None,
        streamKey := None, onLevelChange := false, onLoudNoise := false)
  }

  // ---------------------------------------------------------------- runs of ticks

  /** What one tick meets. */
  datatype TickOutcome = TickOutcome(stop: StopOutcome, upload: UploadEnv, next: ChunkOutcome)

  /** A series of ticks: the final state and the uploads made, in order. */
  function RunTicks(st: AudioState, ticks: seq<TickOutcome>): (AudioState, seq<UploadCall>)
    decreases |ticks|
  {
    if ticks == [] then (st, [])
    else
      var t := ticks[0];
      var first := RecordAndUploadChunk(st, t.stop, t.upload, t.next);
      var rest := RunTicks(first.0, ticks[1..]);
      (rest.0, (if first.1.Some? then [first.1.value] else []) + rest.1)
  }

  /** Ticks never cancel the timer, never drop the key, callbacks or threshold, and never lose the recording. */
  lemma {:induction false} TicksKeepPipeline(st: AudioState, ticks: seq<TickOutcome>)
    requires st.recording.Some?
    ensures var end := RunTicks(st, ticks).0;
      && end.recording.Some?
      && end.chunkTimer == st.chunkTimer && end.streamKey == st.streamKey
      && end.onLevelChange == st.onLevelChange && end.onLoudNoise == st.onLoudNoise
      && end.threshold == st.threshold
    decreases |ticks|
  {
    if ticks != [] {
      var t := ticks[0];
      TicksKeepPipeline(RecordAndUploadChunk(st, t.stop, t.upload, t.next).0, ticks[1..]);
    }
  }

  /** A tick whose chunk stops with a URI. */
  predicate Delivers(t: TickOutcome) {
    t.stop.Unloaded? && Truthy(t.stop.uri)
  }

  /**
   * The uploads a running stream is expected to make over a series of
   * ticks: one per tick whose chunk yields a URI, in order, each to the
   * stream's key, and nothing for ticks whose stop throws or yields no URI.
   */
  function Delivered(key: string, ticks: seq<TickOutcome>): seq<UploadCall>
    decreases |ticks|
  {
    if ticks == [] then []
    else
      var t := ticks[0];
      (if Delivers(t) then [UploadCall(t.stop.uri.value, key, UploadAudioChunk(t.stop.uri.value, key, t.upload))] else [])
        + Delivered(key, ticks[1..])
  }

  /**
   * While a stream runs, every tick whose chunk yields a URI uploads it and
   * no other tick uploads anything, however earlier uploads went and whether
   * or not later chunks could start.
   */
  lemma {:induction false} EveryDeliveredChunkUploads(st: AudioState, ticks: seq<TickOutcome>)
    requires st.recording.Some? && Truthy(st.streamKey)
    ensures RunTicks(st, ticks).1 == Delivered(st.streamKey.value, ticks)
    decreases |ticks|
  {
    if ticks != [] {
      var t := ticks[0];
      var st1 := RecordAndUploadChunk(st, t.stop, t.upload, t.next).0;
      TicksKeepPipeline(st, [t]);
      assert st1 == RunTicks(st, [t]).0;
      EveryDeliveredChunkUploads(st1, ticks[1..]);
    }
  }

  /** In a series where every tick delivers, there is one upload per tick. */
  lemma {:induction false} DeliveredAll(key: string, ticks: seq<TickOutcome>)
    requires forall k :: 0 <= k < |ticks| ==> Delivers(ticks[k])
    ensures |Delivered(key, ticks)| == |ticks|
    decreases |ticks|
  {
    if ticks != [] {
      DeliveredAll(key, ticks[1..]);
    }
  }

  /** Ticks of a timer left running after a stop (or a stale interval) do nothing. */
  lemma {:induction false} IdleTicksDoNothing(st: AudioState, ticks: seq<TickOutcome>)
    requires st.recording.None? || !Truthy(st.streamKey)
    ensures RunTicks(st, ticks) == (st, [])
    decreases |ticks|
  {
    if ticks != [] {
      IdleTicksDoNothing(st, ticks[1..]);
      var none: seq<UploadCall> := [];
      assert none + none == none;
    }
  }

  /**
   * If the first chunk cannot be started, start still reports success and
   * arms the timer for a keyed stream, but no recording exists, so every
   * later tick returns early: nothing is ever uploaded.
   */
  lemma FailedFirstChunkStallsPipeline(onLevel: bool, onLoud: bool, sensitivity: Option<real>, key: string,
                                       ticks: seq<TickOutcome>)
    requires key != ""
    ensures var started := StartAudioRecording(Initial, onLevel, onLoud, sensitivity, Some(key), true, ChunkFailed);
      && started.1 == Ok
      && started.0.chunkTimer
      && RunTicks(started.0, ticks) == (started.0, [])
  {
    var started := StartAudioRecording(Initial, onLevel, onLoud, sensitivity, Some(key), true, ChunkFailed);
    IdleTicksDoNothing(started.0, ticks);
  }

  // ---------------------------------------------------------------- invariant

  /** One call into the service or one timer tick, with the outcomes it meets. */
  datatype Op =
    | StartOp(onLevel: bool, onLoud: bool, sensitivity: Option<real>, key: Option<string>, permission: bool, chunk: ChunkOutcome)
    | TickOp(tick: TickOutcome)
    | StopOp(stop: StopOutcome, upload: UploadEnv)
    | CleanupOp

  function ApplyOp(st: AudioState, op: Op): AudioState {
    match op
    case StartOp(l, n, s, k, p, c) => StartAudioRecording(st, l, n, s, k, p, c).0
    case TickOp(t) => RecordAndUploadChunk(st, t.stop, t.upload, t.next).0
    case StopOp(s, u) => StopAudioRecording(st, s, u).0
    case CleanupOp => CleanupAudio(st)
  }

  function RunOps(st: AudioState, ops: seq<Op>): AudioState
    decreases |ops|
  {
    if ops == [] then st else RunOps(ApplyOp(st, ops[0]), ops[1..])
  }

  lemma ApplyOpValid(st: AudioState, op: Op)
    requires Valid(st)
    ensures Valid(ApplyOp(st, op))
  {
  }

  /** Every run from a valid state stays valid: no monitoring timer, no empty key. */
  lemma {:induction false} RunOpsValid(st: AudioState, ops: seq<Op>)
    requires Valid(st)
    ensures Valid(RunOps(st, ops))
    decreases |ops|
  {
    if ops != [] {
      ApplyOpValid(st, ops[0]);
      RunOpsValid(ApplyOp(st, ops[0]), ops[1..]);
    }
  }
}

=== FILE: baby_journal.dfy ===
/**
 * The activity journal kept by the baby context: a list of logged
 * activities, newest first, and at most one running timer. Persistence and
 * React state plumbing are not modelled; every operation is a pure function
 * of the current list (or timer) and, where the source reads the clock, of
 * the clock value passed in.
 */
module BabyJournal {
  import opened Wrappers
  import opened Text
  import opened Lists

  datatype ActivityType = Sleep | Feeding | Diaper | Playtime
  datatype FeedingType = Breast | Bottle | Solid
  datatype DiaperType = Wet | Dirty | Both
  datatype SleepQuality = Poor | Fair | Good | Excellent

  /** A logged activity. The source's `type` field is called `kind` here. */
  datatype Activity = Activity(
    id: string,
    kind: ActivityType,
    timestamp: int,
    duration: Option<int>,
    notes: Option<string>,
    feedingType: Option<FeedingType>,
    feedingAmount: Option<int>,
    diaperType: Option<DiaperType>,
    sleepQuality: Option<SleepQuality>)

  /** An activity as handed to `addActivity`: every field but the id. */
  datatype ActivityDraft = ActivityDraft(
    kind: ActivityType,
    timestamp: int,
    duration: Option<int>,
    notes: Option<string>,
    feedingType: Option<FeedingType>,
    feedingAmount: Option<int>,
    diaperType: Option<DiaperType>,
    sleepQuality: Option<SleepQuality>)

  /**
   * A `Partial<Activity>`: `None` means the key is absent from the update
   * object. For an optional field, `Some(None)` is a key present with the
   * value `undefined`, which the object spread copies over the old value.
   */
  datatype ActivityPatch = ActivityPatch(
    id: Option<string>,
    kind: Option<ActivityType>,
    timestamp: Option<int>,
    duration: Option<Option<int>>,
    notes: Option<Option<string>>,
    feedingType: Option<Option<FeedingType>>,
    feedingAmount: Option<Option<int>>,
    diaperType: Option<Option<DiaperType>>,
    sleepQuality: Option<Option<SleepQuality>>)

  /** The timer kinds `startTimer` accepts. */
  type TimerType = k: ActivityType | k == Sleep || k == Playtime witness Sleep

  datatype ActiveTimer = ActiveTimer(kind: TimerType, startTime: int)

  /** The patch that names no field. */
  const EmptyPatch := ActivityPatch(None, None, None, None, None, None, None, None, None)

  /** `Date.now().toString()`: the id a new activity receives. */
  function IdAt(now: nat): string {
    NatToString(now)
  }

  /** `{ ...draft, id }`. */
  function WithId(d: ActivityDraft, id: string): Activity {
    Activity(id, d.kind, d.timestamp, d.duration, d.notes, d.feedingType,
             d.feedingAmount, d.diaperType, d.sleepQuality)
  }

  function Override<V>(current: V, present: Option<V>): V {
    if present.Some? then present.value else current
  }

  /** `{ ...a, ...patch }`: every key present in the patch wins, every other field is kept. */
  function Apply(a: Activity, p: ActivityPatch): Activity {
    Activity(
      Override(a.id, p.id),
      Override(a.kind, p.kind),
      Override(a.timestamp, p.timestamp),
      Override(a.duration, p.duration),
      Override(a.notes, p.notes),
      Override(a.feedingType, p.feedingType),
      Override(a.feedingAmount, p.feedingAmount),
      Override(a.diaperType, p.diaperType),
      Override(a.sleepQuality, p.sleepQuality))
  }

  /** Spreading the same patch twice is the same as spreading it once. */
  lemma ApplyIdempotent(a: Activity, p: ActivityPatch)
    ensures Apply(Apply(a, p), p) == Apply(a, p)
  {
  }

  /** Spreading an empty object changes nothing. */
  lemma ApplyEmpty(a: Activity)
    ensures Apply(a, EmptyPatch) == a
  {
  }

  // ---------------------------------------------------------------- list operations

  /** `addActivity`: the new activity, with id `Date.now().toString()`, goes in front. */
  function AddActivity(s: seq<Activity>, d: ActivityDraft, now: nat): (r: seq<Activity>)
    ensures |r| == |s| + 1
    ensures r[0].id == IdAt(now) && ParseDigits(r[0].id) == now
    ensures r[0].kind == d.kind && r[0].timestamp == d.timestamp
    ensures r[0].duration == d.duration && r[0].notes == d.notes
    ensures r[0].feedingType == d.feedingType && r[0].feedingAmount == d.feedingAmount
    ensures r[0].diaperType == d.diaperType && r[0].sleepQuality == d.sleepQuality
    ensures r[1..] == s
  {
    ParseNatToString(now);
    [WithId(d, IdAt(now))] + s
  }

  /** `updateActivity`: every activity whose id matches receives the patch, in place. */
  function UpdateActivity(s: seq<Activity>, id: string, p: ActivityPatch): (r: seq<Activity>)
    ensures |r| == |s|
    ensures forall k :: 0 <= k < |s| && s[k].id != id ==> r[k] == s[k]
    ensures forall k :: 0 <= k < |s| && s[k].id == id ==> r[k] == Apply(s[k], p)
  {
    seq(|s|, k requires 0 <= k < |s| => if s[k].id == id then Apply(s[k], p) else s[k])
  }

  /** `deleteActivity`: the activities with a different id, in their order. */
  function DeleteActivity(s: seq<Activity>, id: string): (r: seq<Activity>)
    ensures forall a: Activity :: a in r <==> a in s && a.id != id
    ensures forall a: Activity :: a.id != id ==> multiset(r)[a] == multiset(s)[a]
    ensures Subsequence(r, s)
  {
    Filter(s, (a: Activity) => a.id != id)
  }

  /** `getActivitiesByType`. */
  function ActivitiesByType(s: seq<Activity>, k: ActivityType): (r: seq<Activity>)
    ensures forall a: Activity :: a in r <==> a in s && a.kind == k
    ensures forall a: Activity :: a.kind == k ==> multiset(r)[a] == multiset(s)[a]
    ensures Subsequence(r, s)
  {
    Filter(s, (a: Activity) => a.kind == k)
  }

  /**
   * `getTodayActivities`, with the local midnight (in epoch milliseconds)
   * passed in: the source computes it from the device clock and time zone.
   */
  function TodayActivities(s: seq<Activity>, midnight: int): (r: seq<Activity>)
    ensures forall a: Activity :: a in r <==> a in s && a.timestamp >= midnight
    ensures forall a: Activity :: a.timestamp >= midnight ==> multiset(r)[a] == multiset(s)[a]
    ensures Subsequence(r, s)
  {
    Filter(s, (a: Activity) => a.timestamp >= midnight)
  }

  // ---------------------------------------------------------------- list properties

  /** Updating an id that no activity carries leaves the list as it was. */
  lemma UpdateUnknownId(s: seq<Activity>, id: string, p: ActivityPatch)
    requires forall k :: 0 <= k < |s| ==> s[k].id != id
    ensures UpdateActivity(s, id, p) == s
  {
  }

  /** Applying the same update twice is the same as applying it once. */
  lemma UpdateIdempotent(s: seq<Activity>, id: string, p: ActivityPatch)
    ensures UpdateActivity(UpdateActivity(s, id, p), id, p) == UpdateActivity(s, id, p)
  {
    var once := UpdateActivity(s, id, p);
    var twice := UpdateActivity(once, id, p);
    forall k | 0 <= k < |s|
      ensures twice[k] == once[k]
    {
      if s[k].id == id {
        ApplyIdempotent(s[k], p);
      }
    }
  }

  /**
   * An update that keeps ids touches nothing but the matching activities:
   * once those are removed, the list is what it was before the update.
   */
  lemma {:induction false} UpdateTouchesOnlyMatches(s: seq<Activity>, id: string, p: ActivityPatch)
    requires p.id.None? || p.id == Some(id)
    ensures DeleteActivity(UpdateActivity(s, id, p), id) == DeleteActivity(s, id)
  {
    if s != [] {
      var u := UpdateActivity(s, id, p);
      assert u[1..] == UpdateActivity(s[1..], id, p);
      UpdateTouchesOnlyMatches(s[1..], id, p);
    }
  }

  /** Deleting twice removes nothing more. */
  lemma DeleteIdempotent(s: seq<Activity>, id: string)
    ensures DeleteActivity(DeleteActivity(s, id), id) == DeleteActivity(s, id)
  {
    FilterIdempotent(s, (a: Activity) => a.id != id);
  }

  /** Deleting an id that no activity carries leaves the list as it was. */
  lemma DeleteUnknownId(s: seq<Activity>, id: string)
    requires forall k :: 0 <= k < |s| ==> s[k].id != id
    ensures DeleteActivity(s, id) == s
  {
    FilterAll(s, (a: Activity) => a.id != id);
  }

  /** Deleting the id just handed out undoes the add, up to older activities with that id. */
  lemma DeleteUndoesAdd(s: seq<Activity>, d: ActivityDraft, now: nat)
    ensures DeleteActivity(AddActivity(s, d, now), IdAt(now)) == DeleteActivity(s, IdAt(now))
  {
    var r := AddActivity(s, d, now);
    assert r[1..] == s;
  }

  /** The four type filters split the journal: their lengths add up to its length. */
  lemma {:induction false} TypesPartition(s: seq<Activity>)
    ensures |ActivitiesByType(s, Sleep)| + |ActivitiesByType(s, Feeding)|
          + |ActivitiesByType(s, Diaper)| + |ActivitiesByType(s, Playtime)| == |s|
  {
    if s != [] {
      TypesPartition(s[1..]);
    }
  }

  /** A new activity whose timestamp is today heads today's list; the rest is unchanged. */
  lemma AddIsToday(s: seq<Activity>, d: ActivityDraft, now: nat, midnight: int)
    requires d.timestamp >= midnight
    ensures TodayActivities(AddActivity(s, d, now), midnight)
         == [WithId(d, IdAt(now))] + TodayActivities(s, midnight)
  {
    var r := AddActivity(s, d, now);
    assert r[1..] == s;
  }

  // ---------------------------------------------------------------- timer

  /** `startTimer`: whatever was running, the timer now runs from `now`. */
  function StartTimer(t: Option<ActiveTimer>, kind: TimerType, now: int): (r: Option<ActiveTimer>)
    ensures r.Some? && r.value.kind == kind && r.value.startTime == now
  {
    Some(ActiveTimer(kind, now))
  }

  /** `stopTimer`: the elapsed milliseconds, or null when no timer runs; no timer runs afterwards. */
  function StopTimer(t: Option<ActiveTimer>, now: int): (r: (Option<int>, Option<ActiveTimer>))
    ensures r.1.None?
    ensures r.0.Some? <==> t.Some?
    ensures t.Some? ==> r.0.value + t.value.startTime == now
  {
    if t.None? then (None, None) else (Some(now - t.value.startTime), None)
  }

  /** Stopping right after a start reports the time between the two clock readings. */
  lemma StopAfterStart(t: Option<ActiveTimer>, kind: TimerType, t0: int, t1: int)
    ensures StopTimer(StartTimer(t, kind, t0), t1) == (Some(t1 - t0), None)
  {
  }

  /** A second stop finds no timer and reports null. */
  lemma StopTwice(t: Option<ActiveTimer>, t1: int, t2: int)
    ensures StopTimer(StopTimer(t, t1).1, t2) == (None, None)
  {
  }
}

=== FILE: deep_link.dfy ===
/**
 * The deep-link handler of the root layout: `url.match(/babycare:\/\/watch\/(\d{4})/)`
 * and, on a match, navigation to `/watch/<code>`. The pattern has no anchors
 * and no flags, so it is case-sensitive, may start anywhere in the URL, and
 * ignores whatever follows the four digits; `\d` is the ASCII digits.
 */
module DeepLink {
  import opened Wrappers
  import opened Text

  const Scheme: string := "babycare://watch/"

  /** The pattern matches the URL starting at index `i`. */
  predicate MatchAt(url: string, i: nat) {
    && i + |Scheme| + 4 <= |url|
    && url[i..i + |Scheme|] == Scheme
    && AllDigits(url[i + |Scheme|..i + |Scheme| + 4])
  }

  /** The leftmost match at or after `from`: where the regex engine stops first. */
  function FirstMatchFrom(url: string, from: nat): (r: Option<nat>)
    decreases |url| - from
    ensures r.Some? ==> from <= r.value && MatchAt(url, r.value)
    ensures r.Some? ==> forall j :: from <= j < r.value ==> !MatchAt(url, j)
    ensures r.None? ==> forall j :: from <= j ==> !MatchAt(url, j)
  {
    if from + |Scheme| + 4 > |url| then None
    else if MatchAt(url, from) then Some(from)
    else FirstMatchFrom(url, from + 1)
  }

  /** `match[1]`: the four digits of the leftmost match, if any. */
  function StreamKey(url: string): (r: Option<string>)
    ensures r.Some? <==> exists i :: MatchAt(url, i)
    ensures r.Some? ==> |r.value| == 4 && AllDigits(r.value)
  {
    match FirstMatchFrom(url, 0)
    case None => None
    case Some(i) => Some(url[i + |Scheme|..i + |Scheme| + 4])
  }

  /** `handleDeepLink`: the route pushed, or `None` when the link is rejected (only logged). */
  function HandleDeepLink(url: string): (route: Option<string>)
    ensures route.Some? <==> exists i :: MatchAt(url, i)
    ensures route.Some? ==> exists key :: |key| == 4 && AllDigits(key) && route.value == "/watch/" + key
  {
    match StreamKey(url)
    case None => None
    case Some(key) => Some("/watch/" + key)
  }

  /** The leftmost occurrence wins, whatever follows it. */
  lemma LeftmostWins(url: string, i: nat)
    requires MatchAt(url, i)
    requires forall j :: 0 <= j < i ==> !MatchAt(url, j)
    ensures StreamKey(url) == Some(url[i + |Scheme|..i + |Scheme| + 4])
    ensures HandleDeepLink(url) == Some("/watch/" + url[i + |Scheme|..i + |Scheme| + 4])
  {
  }

  /** A match only reads the 21 characters it covers. */
  lemma MatchAtAppend(url: string, tail: string, j: nat)
    requires j + |Scheme| + 4 <= |url|
    ensures MatchAt(url + tail, j) <==> MatchAt(url, j)
  {
    var n := j + |Scheme|;
    assert (url + tail)[j..n] == url[j..n];
    assert (url + tail)[n..n + 4] == url[n..n + 4];
  }

  /** Characters after an accepted link are ignored: `babycare://watch/12345` opens stream 1234. */
  lemma TrailingIgnored(url: string, tail: string)
    requires StreamKey(url).Some?
    ensures StreamKey(url + tail) == StreamKey(url)
  {
    var i := FirstMatchFrom(url, 0).value;
    MatchAtAppend(url, tail, i);
    forall j | 0 <= j < i
      ensures !MatchAt(url + tail, j)
    {
      MatchAtAppend(url, tail, j);
    }
    LeftmostWins(url, i);
    LeftmostWins(url + tail, i);
    var n := i + |Scheme|;
    assert (url + tail)[n..n + 4] == url[n..n + 4];
  }

  /** Anything before the scheme is tolerated, provided it cannot itself start a match. */
  lemma LeadingTolerated(lead: string, code: string, tail: string)
    requires 'b' !in lead
    requires |code| == 4 && AllDigits(code)
    ensures HandleDeepLink(lead + Scheme + code + tail) == Some("/watch/" + code)
  {
    var url := lead + Scheme + code + tail;
    var i := |lead|;
    assert url[i..i + |Scheme|] == Scheme;
    assert url[i + |Scheme|..i + |Scheme| + 4] == code;
    forall j | 0 <= j < i
      ensures !MatchAt(url, j)
    {
      assert url[j] == lead[j];
    }
    LeftmostWins(url, i);
  }

  /** Without a lower-case `b` there is no match: `BABYCARE://watch/1234` is rejected. */
  lemma CaseSensitive(url: string)
    requires 'b' !in url
    ensures HandleDeepLink(url) == None
  {
    forall i: nat | i + |Scheme| + 4 <= |url|
      ensures !MatchAt(url, i)
    {
      assert url[i..i + |Scheme|][0] == url[i] != 'b';
    }
  }

  /** The scheme has a lower-case `b` only at indices 0 and 2. */
  lemma SchemeLetterB(k: nat)
    requires k < |Scheme| && k != 0 && k != 2
    ensures Scheme[k] != 'b'
  {
  }

  /** No match starts at `j` in a URL that has only a three-digit code after the scheme. */
  lemma NoMatchAfterThreeDigits(code: string, rest: string, j: nat)
    requires |code| == 3 && AllDigits(code)
    requires rest == [] || !IsDigit(rest[0])
    requires 'b' !in rest
    ensures !MatchAt(Scheme + code + rest, j)
  {
    var url := Scheme + code + rest;
    var n := |Scheme|;
    if j + n + 4 <= |url| {
      if j == 0 {
        assert url[n..n + 4][3] == url[n + 3] == rest[0];
      } else if j == 2 {
        assert url[j..j + n][1] == url[3] == 'y';
      } else {
        assert url[j..j + n][0] == url[j];
        if j < n {
          SchemeLetterB(j);
          assert url[j] == Scheme[j];
        } else if j < n + 3 {
          assert url[j] == code[j - n];
        } else {
          assert url[j] == rest[j - n - 3];
        }
      }
    }
  }

  /**
   * Three digits are not enough: a three-digit code that ends the URL or is
   * followed by a non-digit is rejected, when nothing later can start a match.
   */
  lemma ThreeDigitsRejected(code: string, rest: string)
    requires |code| == 3 && AllDigits(code)
    requires rest == [] || !IsDigit(rest[0])
    requires 'b' !in rest
    ensures HandleDeepLink(Scheme + code + rest) == None
  {
    forall j: nat
      ensures !MatchAt(Scheme + code + rest, j)
    {
      NoMatchAfterThreeDigits(code, rest, j);
    }
  }

  lemma FiveDigitsTruncated()
    ensures HandleDeepLink("babycare://watch/12345") == Some("/watch/1234")
  {
    assert MatchAt("babycare://watch/12345", 0);
    LeftmostWins("babycare://watch/12345", 0);
    assert "babycare://watch/12345"[17..21] == "1234";
    assert "/watch/" + "1234" == "/watch/1234";
  }
}

=== FILE: language_service.dfy ===
/**
 * The translation service: a process-wide current language, the `t`
 * lookup of a dotted key in nested translation trees with an English
 * fallback, `{{name}}` parameter substitution, and the whitelist applied
 * to the stored language preference. The translation tables themselves
 * are a parameter (`Catalog`).
 */
module LanguageService {
  import opened Wrappers
  import opened Text

  datatype Language = En | Nl | Hy

  /** The code under which a language is stored and named in the tables. */
  function Code(l: Language): string {
    match l
    case En => "en"
    case Nl => "nl"
    case Hy => "hy"
  }

  /** A translation tree: a string leaf or an object of named children. */
  datatype Node = Leaf(text: string) | Branch(children: map<string, Node>)

  /** The `translations` table: one tree per language. */
  datatype Catalog = Catalog(en: Node, nl: Node, hy: Node) {
    function Tree(l: Language): Node {
      match l
      case En => en
      case Nl => nl
      case Hy => hy
    }
  }

  /** The module-level `currentLanguage`. */
  datatype LanguageState = LanguageState(current: Language)

  const Initial := LanguageState(En)

  function SetLanguage(st: LanguageState, l: Language): LanguageState {
    LanguageState(l)
  }

  function GetLanguage(st: LanguageState): Language {
    st.current
  }

  /** `getLanguage` returns what the last `setLanguage` stored, and English before any call. */
  lemma GetAfterSet(st: LanguageState, l: Language, m: Language)
    ensures GetLanguage(SetLanguage(st, l)) == l
    ensures GetLanguage(SetLanguage(SetLanguage(st, m), l)) == l
    ensures GetLanguage(Initial) == En
  {
  }

  // ---------------------------------------------------------------- lookup

  /**
   * `for (const k of keys) translation = translation?.[k]`. Indexing a string
   * leaf with a further segment counts as not found.
   */
  function Walk(n: Node, keys: seq<string>): (r: Option<Node>)
    decreases |keys|
  {
    if keys == [] then Some(n)
    else match n
      case Leaf(_) => None
      case Branch(m) => if keys[0] in m then Walk(m[keys[0]], keys[1..]) else None
  }

  /** The walk ends at a string. */
  function Lookup(n: Node, keys: seq<string>): (r: Option<string>)
    ensures r.Some? <==> Walk(n, keys).Some? && Walk(n, keys).value.Leaf?
  {
    match Walk(n, keys)
    case Some(Leaf(s)) => Some(s)
    case _ => None
  }

  /** The tree holding just `text` at the end of `path`. */
  function PathTo(path: seq<string>, text: string): Node
    decreases |path|
  {
    if path == [] then Leaf(text) else Branch(map[path[0] := PathTo(path[1..], text)])
  }

  /** A text placed at a path is found by walking that path. */
  lemma {:induction false} LookupPathTo(path: seq<string>, text: string)
    ensures Lookup(PathTo(path, text), path) == Some(text)
  {
    if path != [] {
      LookupPathTo(path[1..], text);
    }
  }

  /** A path that goes past a string leaf finds nothing. */
  lemma {:induction false} WalkPastLeaf(path: seq<string>, text: string, more: seq<string>)
    requires more != []
    ensures Lookup(PathTo(path, text), path + more) == None
  {
    if path != [] {
      assert (path + more)[1..] == path[1..] + more;
      WalkPastLeaf(path[1..], text, more);
    }
  }

  // ---------------------------------------------------------------- replace

  /**
   * The replacement text of `String.prototype.replace` with a string pattern:
   * `$$` is a dollar sign, `$&` the matched text, `` $` `` the text before the
   * match and `$'` the text after it; every other character is copied.
   */
  function Substitution(repl: string, matched: string, before: string, after: string): string
    decreases |repl|
  {
    if repl == [] then ""
    else if repl[0] == '$' && |repl| >= 2 && repl[1] == '$' then "$" + Substitution(repl[2..], matched, before, after)
    else if repl[0] == '$' && |repl| >= 2 && repl[1] == '&' then matched + Substitution(repl[2..], matched, before, after)
    else if repl[0] == '$' && |repl| >= 2 && repl[1] == '`' then before + Substitution(repl[2..], matched, before, after)
    else if repl[0] == '$' && |repl| >= 2 && repl[1] == '\'' then after + Substitution(repl[2..], matched, before, after)
    else [repl[0]] + Substitution(repl[1..], matched, before, after)
  }

  /** A replacement without a dollar sign is inserted as it is. */
  lemma {:induction false} SubstitutionPlain(repl: string, matched: string, before: string, after: string)
    requires '$' !in repl
    ensures Substitution(repl, matched, before, after) == repl
  {
    if repl != [] {
      SubstitutionPlain(repl[1..], matched, before, after);
      assert [repl[0]] + repl[1..] == repl;
    }
  }

  /** `s.replace(pat, repl)`: only the first occurrence of `pat` is replaced. */
  function ReplaceFirst(s: string, pat: string, repl: string): (r: string)
    ensures IndexOf(s, pat).None? ==> r == s
    ensures IndexOf(s, pat).Some? ==>
      var i := IndexOf(s, pat).value;
      && |r| >= |s| - |pat|
      && r[..i] == s[..i]
      && r[|r| - (|s| - i - |pat|)..] == s[i + |pat|..]
  {
    match IndexOf(s, pat)
    case None => s
    case Some(i) =>
      var before := s[..i];
      var after := s[i + |pat|..];
      var mid := Substitution(repl, pat, before, after);
      var r := before + mid + after;
      assert r[..i] == before;
      assert r[|r| - |after|..] == after;
      r
  }

  /** With a plain replacement, the first occurrence is swapped and everything else kept. */
  lemma ReplaceFirstPlain(s: string, pat: string, repl: string, i: nat)
    requires '$' !in repl
    requires OccursAt(s, pat, i)
    requires forall j :: 0 <= j < i ==> !OccursAt(s, pat, j)
    ensures ReplaceFirst(s, pat, repl) == s[..i] + repl + s[i + |pat|..]
  {
    SubstitutionPlain(repl, pat, s[..i], s[i + |pat|..]);
  }

  /** Only the first occurrence is replaced: a later one survives, shifted by the length change. */
  lemma LaterOccurrenceKept(s: string, pat: string, repl: string, i: nat, j: nat)
    requires '$' !in repl
    requires OccursAt(s, pat, i)
    requires forall k :: 0 <= k < i ==> !OccursAt(s, pat, k)
    requires i + |pat| <= j && OccursAt(s, pat, j)
    ensures OccursAt(ReplaceFirst(s, pat, repl), pat, j - |pat| + |repl|)
  {
    ReplaceFirstPlain(s, pat, repl, i);
    var r := s[..i] + repl + s[i + |pat|..];
    var j' := j - |pat| + |repl|;
    assert r[j'..j' + |pat|] == s[i + |pat|..][j - i - |pat|..j - i];
    assert s[i + |pat|..][j - i - |pat|..j - i] == s[j..j + |pat|];
  }

  /** The placeholder a parameter fills: `{{name}}`. */
  function Placeholder(name: string): string {
    "{{" + name + "}}"
  }

  /** A text without an opening brace holds no placeholder. */
  lemma NoBraceNoPlaceholder(s: string, name: string)
    requires '{' !in s
    ensures IndexOf(s, Placeholder(name)).None?
  {
    var p := Placeholder(name);
    forall j: nat | 0 <= j
      ensures !OccursAt(s, p, j)
    {
      if j + |p| <= |s| {
        assert s[j..j + |p|][0] == s[j];
      }
    }
  }

  /** `Object.keys(params).forEach(...)`, the keys in the order the object yields them. */
  function ApplyParams(s: string, params: seq<(string, string)>): (r: string)
    ensures '{' !in s ==> r == s
    decreases |params|
  {
    if params == [] then s
    else
      var next := ReplaceFirst(s, Placeholder(params[0].0), params[0].1);
      assert '{' !in s ==> next == s by {
        if '{' !in s {
          NoBraceNoPlaceholder(s, params[0].0);
        }
      }
      ApplyParams(next, params[1..])
  }

  /** Parameters whose placeholders do not occur leave the text intact. */
  lemma {:induction false} ApplyParamsAbsent(s: string, params: seq<(string, string)>)
    requires forall k :: 0 <= k < |params| ==> IndexOf(s, Placeholder(params[k].0)).None?
    ensures ApplyParams(s, params) == s
  {
    if params != [] {
      ApplyParamsAbsent(s, params[1..]);
    }
  }

  /** A parameter name without braces, so its placeholder has braces only at its ends. */
  predicate BraceFree(name: string) {
    '{' !in name && '}' !in name
  }

  /** Where a placeholder of a brace-free name occurs, the text has braces at its ends and the name between. */
  lemma PlaceholderChars(s: string, m: string, j: nat)
    requires BraceFree(m) && OccursAt(s, Placeholder(m), j)
    ensures s[j] == '{' && s[j + 1] == '{'
    ensures forall k :: j + 2 <= k < j + 2 + |m| ==> s[k] == m[k - j - 2] && s[k] != '{' && s[k] != '}'
    ensures s[j + 2 + |m|] == '}' && s[j + 3 + |m|] == '}'
  {
    var p := Placeholder(m);
    assert forall k :: 0 <= k < |p| ==> s[j + k] == p[k] by {
      assert s[j..j + |p|] == p;
    }
    forall k | j + 2 <= k < j + 2 + |m|
      ensures s[k] == m[k - j - 2]
    {
      assert s[j + (k - j)] == p[k - j];
    }
  }

  /**
   * Two placeholders of brace-free names either do not overlap, or they are
   * the same placeholder at the same place.
   */
  lemma PlaceholdersDisjoint(s: string, m: string, n: string, j: nat, i: nat)
    requires BraceFree(m) && BraceFree(n)
    requires OccursAt(s, Placeholder(m), j) && OccursAt(s, Placeholder(n), i)
    ensures j + |m| + 4 <= i || i + |n| + 4 <= j || (i == j && m == n)
  {
    PlaceholderChars(s, m, j);
    PlaceholderChars(s, n, i);
    if i == j && |m| == |n| {
      forall k | 0 <= k < |m|
        ensures m[k] == n[k]
      {
        assert s[j + 2 + k] == m[k];
      }
    }
  }

  /** Replacing the placeholder of another brace-free name keeps an occurrence of `{{n}}`. */
  lemma ReplaceKeepsPlaceholder(s: string, m: string, v: string, n: string, i: nat)
    requires BraceFree(m) && BraceFree(n) && m != n
    requires OccursAt(s, Placeholder(n), i)
    ensures exists i' :: OccursAt(ReplaceFirst(s, Placeholder(m), v), Placeholder(n), i')
  {
    var r := ReplaceFirst(s, Placeholder(m), v);
    var q := Placeholder(n);
    match IndexOf(s, Placeholder(m))
    case None =>
      assert OccursAt(r, q, i);
    case Some(j) =>
      PlaceholdersDisjoint(s, m, n, j, i);
      if i + |q| <= j {
        assert r[i..i + |q|] == r[..j][i..i + |q|] == s[..j][i..i + |q|];
        assert OccursAt(r, q, i);
      } else {
        var tail := |s| - j - |Placeholder(m)|;
        var i' := |r| - (|s| - i);
        assert r[i'..i' + |q|] == r[|r| - tail..][i - j - |Placeholder(m)|..i - j - |Placeholder(m)| + |q|];
        assert OccursAt(r, q, i');
      }
  }

  /** A placeholder that no parameter names is left in the text by the substitution. */
  lemma {:induction false} ApplyParamsKeepsUnnamed(s: string, params: seq<(string, string)>, n: string, i: nat)
    requires BraceFree(n) && OccursAt(s, Placeholder(n), i)
    requires forall k :: 0 <= k < |params| ==> BraceFree(params[k].0) && params[k].0 != n
    ensures exists i' :: OccursAt(ApplyParams(s, params), Placeholder(n), i')
    decreases |params|
  {
    if params != [] {
      var s1 := ReplaceFirst(s, Placeholder(params[0].0), params[0].1);
      ReplaceKeepsPlaceholder(s, params[0].0, params[0].1, n, i);
      var i1 :| OccursAt(s1, Placeholder(n), i1);
      ApplyParamsKeepsUnnamed(s1, params[1..], n, i1);
      assert ApplyParams(s, params) == ApplyParams(s1, params[1..]);
    } else {
      assert OccursAt(ApplyParams(s, params), Placeholder(n), i);
    }
  }

  // ---------------------------------------------------------------- t

  /**
   * `t(key, params)`: the string at the dotted path in the current
   * language, else in English, with parameters substituted; the key
   * itself when neither tree has a string there.
   */
  function Translate(st: LanguageState, c: Catalog, key: string, params: seq<(string, string)>): (r: string)
    ensures Lookup(c.Tree(st.current), Split(key, '.')).Some? ==>
      r == ApplyParams(Lookup(c.Tree(st.current), Split(key, '.')).value, params)
    ensures Lookup(c.Tree(st.current), Split(key, '.')).None? && Lookup(c.en, Split(key, '.')).Some? ==>
      r == ApplyParams(Lookup(c.en, Split(key, '.')).value, params)
    ensures Lookup(c.Tree(st.current), Split(key, '.')).None? && Lookup(c.en, Split(key, '.')).None? ==>
      r == key
  {
    var keys := Split(key, '.');
    match Lookup(c.Tree(st.current), keys)
    case Some(s) => ApplyParams(s, params)
    case None =>
      match Lookup(c.en, keys)
      case Some(s) => ApplyParams(s, params)
      case None => key
  }

  /** A key written as the dotted form of a path finds the text stored at that path. */
  lemma TranslateStoredPath(st: LanguageState, c: Catalog, path: seq<string>, text: string)
    requires 1 <= |path|
    requires forall k :: 0 <= k < |path| ==> '.' !in path[k]
    requires c.Tree(st.current) == PathTo(path, text)
    ensures Translate(st, c, Join(path, '.'), []) == text
  {
    SplitJoin(path, '.');
    LookupPathTo(path, text);
  }

  /** A key missing from both trees comes back verbatim, whatever the parameters. */
  lemma TranslateMissingIsKey(st: LanguageState, c: Catalog, key: string, params: seq<(string, string)>)
    requires Lookup(c.Tree(st.current), Split(key, '.')).None?
    requires Lookup(c.en, Split(key, '.')).None?
    ensures Translate(st, c, key, params) == key
  {
  }

  // ---------------------------------------------------------------- preference

  /** What AsyncStorage hands back: the stored value (`null` when absent), or an error. */
  datatype StoredPreference = Read(value: Option<string>) | ReadFailed

  /** `loadLanguagePreference`: a stored "en", "nl" or "hy", else English. */
  function LoadLanguagePreference(stored: StoredPreference): (l: Language)
    ensures stored.Read? && stored.value.Some? && stored.value.value in {"en", "nl", "hy"} ==>
      Code(l) == stored.value.value
    ensures !(stored.Read? && stored.value.Some? && stored.value.value in {"en", "nl", "hy"}) ==>
      l == En
  {
    if stored.Read? && stored.value.Some? then
      var saved := stored.value.value;
      if saved == "en" then En
      else if saved == "nl" then Nl
      else if saved == "hy" then Hy
      else En
    else En
  }

  /** `saveLanguagePreference`: the stored value after the write; a failed write is swallowed. */
  function SaveLanguagePreference(l: Language, writeOk: bool, previous: Option<string>): (r: Option<string>)
    ensures writeOk ==> r == Some(Code(l)) && r.value in {"en", "nl", "hy"}
    ensures !writeOk ==> r == previous
  {
    if writeOk then Some(Code(l)) else previous
  }

  /** A preference that was saved successfully is loaded back unchanged. */
  lemma LoadAfterSave(l: Language, previous: Option<string>)
    ensures LoadLanguagePreference(Read(SaveLanguagePreference(l, true, previous))) == l
  {
  }
}

=== FILE: lists.dfy ===
/** `Array.prototype.filter` and the order-preserving subsequence relation it satisfies. */
module Lists {

  /** `r` is `s` with some elements dropped and the rest kept in order. */
  predicate Subsequence<T(==)>(r: seq<T>, s: seq<T>)
    decreases |s|
  {
    if r == [] then true
    else if s == [] then false
    else if r[0] == s[0] then Subsequence(r[1..], s[1..])
    else Subsequence(r, s[1..])
  }

  /** `s.filter(p)`: the elements satisfying `p`, each as often as in `s`, in their order. */
  function Filter<T(==,!new)>(s: seq<T>, p: T -> bool): (r: seq<T>)
    ensures |r| <= |s|
    ensures forall x :: multiset(r)[x] == if p(x) then multiset(s)[x] else 0
    ensures forall x :: x in r <==> x in s && p(x)
    ensures Subsequence(r, s)
  {
    if s == [] then []
    else
      var rest := Filter(s[1..], p);
      assert s == [s[0]] + s[1..];
      if p(s[0]) then [s[0]] + rest else rest
  }

  /** Filtering twice with the same test changes nothing the second time. */
  lemma {:induction false} FilterIdempotent<T(!new)>(s: seq<T>, p: T -> bool)
    ensures Filter(Filter(s, p), p) == Filter(s, p)
  {
    if s != [] {
      FilterIdempotent(s[1..], p);
    }
  }

  /** When every element passes, filtering is the identity. */
  lemma {:induction false} FilterAll<T(!new)>(s: seq<T>, p: T -> bool)
    requires forall k :: 0 <= k < |s| ==> p(s[k])
    ensures Filter(s, p) == s
  {
    if s != [] {
      FilterAll(s[1..], p);
      assert [s[0]] + s[1..] == s;
    }
  }
}

=== FILE: text.dfy ===
/**
 * Text helpers the source gets from the JavaScript runtime: decimal
 * formatting of numbers (template literals, `toString()`), lowercase hex
 * (`b.toString(16).padStart(2, '0')`), `String.prototype.split` on one
 * character and `indexOf`-style search.
 */
module Text {
  import opened Wrappers

  /** An 8-bit unsigned value, as stored in a `Uint8Array`. */
  type byte = b: int | 0 <= b < 256

  predicate IsDigit(c: char) {
    '0' <= c <= '9'
  }

  predicate AllDigits(s: string) {
    forall i :: 0 <= i < |s| ==> IsDigit(s[i])
  }

  function DigitChar(d: int): (c: char)
    requires 0 <= d < 10
    ensures IsDigit(c)
  {
    ('0' as int + d) as char
  }

  function DigitValue(c: char): (d: int)
    requires IsDigit(c)
    ensures 0 <= d < 10
  {
    c as int - '0' as int
  }

  lemma DigitRoundTrip(d: int)
    requires 0 <= d < 10
    ensures DigitValue(DigitChar(d)) == d
  {
  }

  // ---------------------------------------------------------------- decimal

  /** The shortest decimal numeral of `n`, as JavaScript prints a non-negative integer. */
  function NatToString(n: nat): (s: string)
    ensures 1 <= |s|
    ensures AllDigits(s)
    ensures n > 0 ==> s[0] != '0'
    ensures n < 10 <==> |s| == 1
  {
    if n < 10 then [DigitChar(n)] else NatToString(n / 10) + [DigitChar(n % 10)]
  }

  /** The value of a string of decimal digits (the empty string denotes 0). */
  function ParseDigits(s: string): (n: nat)
    requires AllDigits(s)
  {
    if s == [] then 0 else ParseDigits(s[..|s| - 1]) * 10 + DigitValue(s[|s| - 1])
  }

  /** Decimal formatting is inverted by parsing. */
  lemma {:induction false} ParseNatToString(n: nat)
    ensures ParseDigits(NatToString(n)) == n
  {
    var s := NatToString(n);
    if n < 10 {
      DigitRoundTrip(n);
    } else {
      var hi := NatToString(n / 10);
      assert s[..|s| - 1] == hi;
      ParseNatToString(n / 10);
      DigitRoundTrip(n % 10);
    }
  }

  /** How a template literal prints an integer: a minus sign, then the magnitude. */
  function IntToString(i: int): (s: string)
    ensures 1 <= |s|
    ensures i >= 0 ==> s == NatToString(i)
    ensures i < 0 ==> s == "-" + NatToString(-i)
  {
    if i < 0 then "-" + NatToString(-i) else NatToString(i)
  }

  // ---------------------------------------------------------------- hex

  predicate IsLowerHex(c: char) {
    ('0' <= c <= '9') || ('a' <= c <= 'f')
  }

  function HexChar(d: int): (c: char)
    requires 0 <= d < 16
    ensures IsLowerHex(c)
  {
    if d < 10 then ('0' as int + d) as char else ('a' as int + d - 10) as char
  }

  function HexValue(c: char): (d: int)
    requires IsLowerHex(c)
    ensures 0 <= d < 16
  {
    if c <= '9' then c as int - '0' as int else c as int - 'a' as int + 10
  }

  lemma HexDigitRoundTrip(d: int)
    requires 0 <= d < 16
    ensures HexValue(HexChar(d)) == d
  {
  }

  /** One byte as exactly two lowercase hex digits, zero-padded. */
  function ByteToHex(b: byte): (s: string)
    ensures |s| == 2
    ensures IsLowerHex(s[0]) && IsLowerHex(s[1])
    ensures HexValue(s[0]) * 16 + HexValue(s[1]) == b
  {
    HexDigitRoundTrip(b / 16);
    HexDigitRoundTrip(b % 16);
    [HexChar(b / 16), HexChar(b % 16)]
  }

  /** The `map(b => b.toString(16).padStart(2, '0')).join('')` of the source. */
  function HexEncode(bs: seq<byte>): (s: string)
    ensures |s| == 2 * |bs|
    ensures forall i :: 0 <= i < |s| ==> IsLowerHex(s[i])
  {
    if bs == [] then "" else ByteToHex(bs[0]) + HexEncode(bs[1..])
  }

  /** Reads back pairs of lowercase hex digits. */
  function HexDecode(s: string): (bs: seq<byte>)
    requires |s| % 2 == 0
    requires forall i :: 0 <= i < |s| ==> IsLowerHex(s[i])
    ensures |bs| * 2 == |s|
  {
    if s == [] then [] else [HexValue(s[0]) * 16 + HexValue(s[1])] + HexDecode(s[2..])
  }

  /** Hex encoding loses nothing: decoding recovers the bytes. */
  lemma {:induction false} HexRoundTrip(bs: seq<byte>)
    ensures HexDecode(HexEncode(bs)) == bs
  {
    if bs != [] {
      var s := HexEncode(bs);
      assert s[2..] == HexEncode(bs[1..]);
      HexRoundTrip(bs[1..]);
    }
  }

  // ---------------------------------------------------------------- search

  /** `pat` occurs in `s` starting at index `i`. */
  predicate OccursAt(s: string, pat: string, i: nat) {
    i + |pat| <= |s| && s[i..i + |pat|] == pat
  }

  /** The leftmost index at or after `from` where `pat` occurs, as `indexOf` finds it. */
  function IndexOfFrom(s: string, pat: string, from: nat): (r: Option<nat>)
    decreases |s| - from
    ensures r.Some? ==> from <= r.value && OccursAt(s, pat, r.value)
    ensures r.Some? ==> forall j :: from <= j < r.value ==> !OccursAt(s, pat, j)
    ensures r.None? ==> forall j :: from <= j ==> !OccursAt(s, pat, j)
  {
    if from + |pat| > |s| then None
    else if s[from..from + |pat|] == pat then Some(from)
    else IndexOfFrom(s, pat, from + 1)
  }

  function IndexOf(s: string, pat: string): (r: Option<nat>)
    ensures r.Some? ==> OccursAt(s, pat, r.value)
    ensures r.Some? ==> forall j :: 0 <= j < r.value ==> !OccursAt(s, pat, j)
    ensures r.None? <==> forall j :: 0 <= j ==> !OccursAt(s, pat, j)
  {
    IndexOfFrom(s, pat, 0)
  }

  // ---------------------------------------------------------------- split

  /** `s.split(sep)` for a one-character separator; `"".split(sep)` is `[""]`. */
  function Split(s: string, sep: char): (parts: seq<string>)
    ensures 1 <= |parts|
    ensures forall k :: 0 <= k < |parts| ==> sep !in parts[k]
  {
    if s == [] then [""]
    else
      var rest := Split(s[1..], sep);
      if s[0] == sep then [""] + rest
      else [[s[0]] + rest[0]] + rest[1..]
  }

  /** `parts.join(sep)`. */
  function Join(parts: seq<string>, sep: char): string
    requires 1 <= |parts|
  {
    if |parts| == 1 then parts[0] else parts[0] + [sep] + Join(parts[1..], sep)
  }

  /** Splitting loses nothing: joining the parts back gives the original text. */
  lemma {:induction false} JoinSplit(s: string, sep: char)
    ensures Join(Split(s, sep), sep) == s
  {
    if s != [] {
      var rest := Split(s[1..], sep);
      JoinSplit(s[1..], sep);
      if s[0] != sep {
        JoinConsFirst(s[0], rest, sep);
      }
    }
  }

  lemma JoinConsFirst(c: char, parts: seq<string>, sep: char)
    requires 1 <= |parts|
    ensures Join([[c] + parts[0]] + parts[1..], sep) == [c] + Join(parts, sep)
  {
    var ps := [[c] + parts[0]] + parts[1..];
    if |parts| > 1 {
      assert ps[1..] == parts[1..];
    }
  }

  /** Splitting at the first separator peels off the text before it. */
  lemma {:induction false} SplitAtSeparator(a: string, b: string, sep: char)
    requires sep !in a
    ensures Split(a + [sep] + b, sep) == [a] + Split(b, sep)
  {
    if a == [] {
      assert a + [sep] + b == [sep] + b;
      assert ([sep] + b)[1..] == b;
    } else {
      SplitAtSeparator(a[1..], b, sep);
      assert (a + [sep] + b)[1..] == a[1..] + [sep] + b;
      assert [a[0]] + a[1..] == a;
    }
  }

  /** Joining parts free of the separator is inverted by splitting. */
  lemma {:induction false} SplitJoin(parts: seq<string>, sep: char)
    requires 1 <= |parts|
    requires forall k :: 0 <= k < |parts| ==> sep !in parts[k]
    ensures Split(Join(parts, sep), sep) == parts
  {
    if |parts| == 1 {
      SplitNoSeparator(parts[0], sep);
    } else {
      SplitJoin(parts[1..], sep);
      SplitAtSeparator(parts[0], Join(parts[1..], sep), sep);
      assert [parts[0]] + parts[1..] == parts;
    }
  }

  /** Splitting a text that has no separator yields that text alone. */
  lemma {:induction false} SplitNoSeparator(s: string, sep: char)
    requires sep !in s
    ensures Split(s, sep) == [s]
  {
    if s != [] {
      SplitNoSeparator(s[1..], sep);
      assert [s[0]] + s[1..] == s;
    }
  }
}

=== FILE: token_endpoint.dfy ===
/**
 * The `generate-agora-token` edge function: request validation, defaults,
 * the expiry timestamp, the message that is hashed and the token layout
 * `"007" + appId + hex(SHA-256(message + certificate))`. The environment
 * variables, the clock and the digest (UTF-8 encoding followed by SHA-256)
 * are parameters.
 */
module TokenEndpoint {
  import opened Wrappers
  import opened Text

  /** A SHA-256 digest: 32 bytes. */
  type Digest = s: seq<byte> | |s| == 32 witness seq(32, _ => 0)

  /** The JSON values a request field can hold (fractional numbers are not modelled). */
  datatype JsValue = JsUndefined | JsNull | JsBool(b: bool) | JsNumber(n: int) | JsString(s: string)

  /** JavaScript truthiness: `undefined`, `null`, `false`, `0` and `""` are falsy. */
  predicate IsTruthy(v: JsValue) {
    match v
    case JsUndefined => false
    case JsNull => false
    case JsBool(b) => b
    case JsNumber(n) => n != 0
    case JsString(s) => s != ""
  }

  /** How a template literal prints a value. */
  function TemplateString(v: JsValue): string {
    match v
    case JsUndefined => "undefined"
    case JsNull => "null"
    case JsBool(b) => if b then "true" else "false"
    case JsNumber(n) => IntToString(n)
    case JsString(s) => s
  }

  /** The request body after `await req.json()` and destructuring, or the message of what was thrown. */
  datatype Body = JsonBody(channelName: JsValue, uid: JsValue, role: JsValue) | BadBody(message: string)

  datatype Request = Request(httpMethod: string, body: Body)

  /** `Deno.env`, the clock and the digest function. */
  datatype ServerEnv = ServerEnv(
    appId: Option<string>,
    certificate: Option<string>,
    nowMillis: int,
    digest: string -> Digest)

  datatype Headers = Cors | CorsJson

  datatype ResponseBody =
    | NullBody
    | TokenJson(token: string, appId: string, channelName: JsValue, uid: JsValue, expiration: int)
    | ErrorJson(error: string)

  datatype Response = Response(status: int, body: ResponseBody, headers: Headers)

  /** The token lifetime the function always uses, in seconds. */
  const ExpirationTimeInSeconds: int := 3600

  // ---------------------------------------------------------------- token

  /** `Math.floor(Date.now() / 1000) + expirationTimeInSeconds`. */
  function PrivilegeExpiredTs(nowMillis: int, ttl: int): (ts: int)
    ensures (ts - ttl) * 1000 <= nowMillis < (ts - ttl) * 1000 + 1000
  {
    nowMillis / 1000 + ttl
  }

  /** `${appId}${channelName}${uid}${privilegeExpiredTs}`: no separators. */
  function TokenMessage(appId: string, channelName: JsValue, uid: JsValue, expiry: int): string {
    appId + TemplateString(channelName) + TemplateString(uid) + IntToString(expiry)
  }

  const TokenVersion: string := "007"

  /** `generateRtcToken`. The role is accepted and not used. */
  function GenerateRtcToken(appId: string, certificate: string, channelName: JsValue, uid: JsValue,
                            role: JsValue, ttl: int, nowMillis: int, digest: string -> Digest): (token: string)
    ensures |token| == |TokenVersion| + |appId| + 64
    ensures token[..|TokenVersion| + |appId|] == TokenVersion + appId
    ensures forall i :: |TokenVersion| + |appId| <= i < |token| ==> IsLowerHex(token[i])
    ensures HexDecode(token[|TokenVersion| + |appId|..])
         == digest(TokenMessage(appId, channelName, uid, PrivilegeExpiredTs(nowMillis, ttl)) + certificate)
  {
    var message := TokenMessage(appId, channelName, uid, PrivilegeExpiredTs(nowMillis, ttl));
    var hash := digest(message + certificate);
    var token := TokenVersion + appId + HexEncode(hash);
    assert token[|TokenVersion| + |appId|..] == HexEncode(hash);
    HexRoundTrip(hash);
    token
  }

  /** The role plays no part in the token. */
  lemma TokenIgnoresRole(appId: string, cert: string, ch: JsValue, uid: JsValue, r1: JsValue, r2: JsValue,
                         ttl: int, now: int, digest: string -> Digest)
    ensures GenerateRtcToken(appId, cert, ch, uid, r1, ttl, now, digest)
         == GenerateRtcToken(appId, cert, ch, uid, r2, ttl, now, digest)
  {
  }

  /**
   * Because the parts are run together, channel "x1" with uid 23 and channel
   * "x12" with uid 3 hash the same message and receive the same token.
   */
  lemma SeparatorlessCollision(appId: string, cert: string, role: JsValue, ttl: int, now: int, digest: string -> Digest)
    ensures GenerateRtcToken(appId, cert, JsString("x1"), JsNumber(23), role, ttl, now, digest)
         == GenerateRtcToken(appId, cert, JsString("x12"), JsNumber(3), role, ttl, now, digest)
  {
    assert TemplateString(JsNumber(3)) == "3";
    assert TemplateString(JsNumber(23)) == "23" by {
      assert NatToString(23) == NatToString(2) + [DigitChar(3)];
    }
    var ts := PrivilegeExpiredTs(now, ttl);
    var e := IntToString(ts);
    assert appId + "x1" + "23" + e == appId + "x12" + "3" + e;
    assert TokenMessage(appId, JsString("x1"), JsNumber(23), ts) == TokenMessage(appId, JsString("x12"), JsNumber(3), ts);
  }

  // ---------------------------------------------------------------- serve

  const CredentialsMissing: string := "Agora credentials not configured"
  const ChannelRequired: string := "Channel name is required"

  function ErrorResponse(message: string): Response {
    Response(500, ErrorJson(message), CorsJson)
  }

  /** `role || 1`. */
  function DefaultRole(role: JsValue): (r: JsValue)
    ensures IsTruthy(r)
    ensures !IsTruthy(role) ==> r == JsNumber(1)
    ensures IsTruthy(role) ==> r == role
  {
    if IsTruthy(role) then role else JsNumber(1)
  }

  /** `uid || 0`: a falsy uid becomes the number 0. */
  function DefaultUid(uid: JsValue): (r: JsValue)
    ensures !IsTruthy(uid) <==> r == JsNumber(0)
    ensures IsTruthy(uid) ==> r == uid
  {
    if IsTruthy(uid) then uid else JsNumber(0)
  }

  /** The request handler passed to `serve`. */
  function Serve(req: Request, env: ServerEnv): (resp: Response)
    ensures req.httpMethod == "OPTIONS" ==> resp == Response(200, NullBody, Cors)
    ensures req.httpMethod != "OPTIONS" ==> resp.headers == CorsJson
    ensures req.httpMethod != "OPTIONS" && !(Truthy(env.appId) && Truthy(env.certificate)) ==>
      resp == ErrorResponse(CredentialsMissing)
    ensures resp.body.TokenJson? ==> resp.status == 200
    ensures resp.body.ErrorJson? <==> resp.status == 500
    ensures resp.body.TokenJson? ==>
      && req.body.JsonBody? && IsTruthy(req.body.channelName)
      && Truthy(env.appId) && resp.body.appId == env.appId.value
      && resp.body.channelName == req.body.channelName
      && resp.body.uid == DefaultUid(req.body.uid)
      && resp.body.expiration == ExpirationTimeInSeconds
  {
    if req.httpMethod == "OPTIONS" then Response(200, NullBody, Cors)
    else if !(Truthy(env.appId) && Truthy(env.certificate)) then ErrorResponse(CredentialsMissing)
    else match req.body
      case BadBody(m) => ErrorResponse(m)
      case JsonBody(channelName, uid, role) =>
        if !IsTruthy(channelName) then ErrorResponse(ChannelRequired)
        else
          var tokenRole := DefaultRole(role);
          var uidNumber := DefaultUid(uid);
          var token := GenerateRtcToken(env.appId.value, env.certificate.value, channelName, uidNumber,
                                        tokenRole, ExpirationTimeInSeconds, env.nowMillis, env.digest);
          Response(200, TokenJson(token, env.appId.value, channelName, uidNumber, ExpirationTimeInSeconds), CorsJson)
  }

  /** A missing or empty channel name is refused once the credentials are there. */
  lemma ChannelNameRequired(httpMethod: string, ch: JsValue, uid: JsValue, role: JsValue, env: ServerEnv)
    requires httpMethod != "OPTIONS" && Truthy(env.appId) && Truthy(env.certificate)
    requires !IsTruthy(ch)
    ensures Serve(Request(httpMethod, JsonBody(ch, uid, role)), env) == ErrorResponse(ChannelRequired)
  {
  }

  /** A successful response carries the token built from the defaulted uid and the clock. */
  lemma IssuedToken(httpMethod: string, ch: JsValue, uid: JsValue, role: JsValue, env: ServerEnv)
    requires httpMethod != "OPTIONS" && Truthy(env.appId) && Truthy(env.certificate)
    requires IsTruthy(ch)
    ensures var resp := Serve(Request(httpMethod, JsonBody(ch, uid, role)), env);
      && resp.status == 200
      && resp.body.token == TokenVersion + env.appId.value
           + HexEncode(env.digest(TokenMessage(env.appId.value, ch, DefaultUid(uid),
                                               env.nowMillis / 1000 + ExpirationTimeInSeconds)
                                  + env.certificate.value))
      && |resp.body.token| == 3 + |env.appId.value| + 64
  {
  }

  /** The response does not depend on the requested role at all. */
  lemma ResponseIgnoresRole(httpMethod: string, ch: JsValue, uid: JsValue, r1: JsValue, r2: JsValue, env: ServerEnv)
    ensures Serve(Request(httpMethod, JsonBody(ch, uid, r1)), env) == Serve(Request(httpMethod, JsonBody(ch, uid, r2)), env)
  {
  }
}

=== FILE: wrappers.dfy ===
/** Small wrappers shared by every module of the model. */
module Wrappers {

  /** The Some/None datatype, standing in for `T | null` and `T | undefined`. */
  datatype Option<+T> = None | Some(value: T)

  /** A success value or an error value, standing in for `{ success, error? }` replies. */
  datatype Result<+R, +E> = Success(value: R) | Failure(error: E)

  /** A `{ success: true }` or `{ success: false, error }` reply. */
  datatype Reply = Ok | Err(error: string)

  /**
   * A value thrown by a platform call: either an `Error` object carrying a
   * message, or something else (the `error instanceof Error` test fails).
   */
  datatype Thrown = ErrorObject(message: string) | NonErrorValue

  /** The `error instanceof Error ? error.message : fallback` idiom of the source. */
  function Describe(t: Thrown, fallback: string): (msg: string)
    ensures t.NonErrorValue? ==> msg == fallback
    ensures t.ErrorObject? ==> msg == t.message
  {
    match t
    case ErrorObject(m) => m
    case NonErrorValue => fallback
  }

  /** JavaScript truthiness of an optional string: `null`, `undefined` and `""` are falsy. */
  predicate Truthy(s: Option<string>) {
    s.Some? && s.value != ""
  }
}
